=== FILE: README.md ===
# Personal finance tracker: a Dafny model of the routes and the dashboard arithmetic

The personal finance tracker is an Express/MySQL back end with a React dashboard. Users register and log in. They record income and expense
transactions under categories and see monthly and per-category statistics.
This project models the core of that system as pure functions over an
immutable database value:

- the transaction routes (`backend/routes/transactions.js`): list, create,
  update, delete and the two `/stats` aggregations;
- the category routes (`backend/routes/categories.js`): list, create, update,
  and delete with its in-use check;
- the authentication routes (`backend/routes/auth.js`): register and login;
- the dashboard's client-side figures (`frontend/src/components/Dashboard/Dashboard.jsx`):
  total income, total expenses, balance, and the expense-by-category chart
  built in `fetchData`.

Each route that can change the database is a function
`(db, caller, input) -> Outcome(reply, db')`. The read-only routes (the
transaction list, the category list and the two statistics) have no failure
reply other than the 500 on a database error, which is left out, so they return their 200 body directly, with no
reply wrapper and no database. Register and login run before authentication
and take no caller: register is `(env, db, input, salt, now) -> Outcome(reply, db')`,
and login changes nothing and returns only a reply. A reply is
`Ok(status, body)`, `Invalid(fields)` (the 400 reply listing the failed
validators in declaration order) or `Refused(status, message)`. `Store.Valid`
is the invariant the routes keep when they run one at a time:

- unique primary keys below the auto-increment counters, which the
  auto-increment columns give;
- unique e-mail addresses, which only the register route's check before its
  insert maintains.

`Valid` is required by every route that changes a table, and by the routes
whose contracts rely on unique keys: login, the transaction list and the
per-category statistics. The category list and the monthly statistics need
no precondition. Every route that changes a table is proved to keep `Valid`. Amounts are integers
(cents).

Modules, one per file:

| file | module | contents |
|---|---|---|
| common.dfy | Common | `Option`, `Kind`, `Date`, the `trim()` sanitizer, `Reply` |
| sorting.dfy | Sorting | a stable insertion sort by a comparator, used for `ORDER BY date`, `ORDER BY name` and `ORDER BY total`; permutation helpers |
| store.dfy | Store | the three tables, `Db`, `Valid`, `FindCategory`, `TxnsOf` (`WHERE user_id = ?`) |
| ledger.dfy | Ledger | the transaction routes |
| stats.dfy | Stats | `GET /transactions/stats` |
| categories.dfy | Categories | the category routes |
| auth.dfy | Auth | register and login |
| dashboard.dfy | Dashboard | the dashboard totals and the expense chart |

The grouping aggregations (the monthly statistics, the per-category
statistics and the dashboard's expense chart) are each modelled as a single
pass that accumulates a map of per-group totals. The dashboard's income and
expense totals are plain filtered sums. Each is proved equal to an
independent reference definition: the filtered sum the query or the client
code describes (`MonthSum`, `CategorySum`, `KindTotal`, `NameTotal`).

## Model

| member | source | states |
|---|---|---|
| Common.ParseKind | backend/routes/transactions.js:32 | `isIn(['income', 'expense'])` accepts exactly the two spellings, each mapped to its own polarity |
| Common.KindName | backend/routes/transactions.js:32 | the wire spelling of a polarity is accepted by the validator and parses back to the same polarity |
| Common.Trim | backend/routes/transactions.js:29 | the sanitized value is a slice of the input, and only whitespace was cut off before and after it; it has no leading or trailing whitespace, and is empty exactly when the input is all whitespace |
| Common.TrimPadded | backend/routes/transactions.js:29 | whitespace padding on either side of a text with non-space ends is removed exactly, so the trimmed value is that text |
| Common.TrimIdempotent | backend/routes/transactions.js:29 | trimming an already trimmed value changes nothing |
| Sorting.SortBy | backend/routes/transactions.js:14 | `ORDER BY`: the result is a permutation of the input, ordered whenever the comparison is total, and duplicate-free when the input is |
| Store.FindCategory | backend/routes/transactions.js:12 | the `LEFT JOIN` lookup finds a category with the transaction's `category_id`, or none exactly when no category has it |
| Store.TxnsOf | backend/routes/transactions.js:13 | `WHERE user_id = ?` keeps exactly the rows owned by the user |
| Store.TxnsOfAppend | backend/routes/transactions.js:13 | `WHERE user_id = ?` distributes over concatenation of the table |
| Ledger.Join | backend/routes/transactions.js:10-12 | a joined row carries the category's name and type when a category has that id and both are NULL exactly when none has |
| Ledger.ListTxns | backend/routes/transactions.js:9-16 | GET /: a permutation of the caller's rows, each joined; every caller row appears, no other user's row does, and the list is newest first |
| Ledger.TxnErrors | backend/routes/transactions.js:28-39 | the 400 reply lists no field exactly when amount, description, category id, date and type all validate |
| Ledger.TxnErrorFields | backend/routes/transactions.js:28-32 | each field name is listed exactly when that field's own validator fails |
| Ledger.Edited | backend/routes/transactions.js:84-85 | the updated row keeps its id and owner and takes the five validated fields, the description trimmed |
| Ledger.CreateTxn | backend/routes/transactions.js:41-56 | POST /: a validation failure changes nothing; otherwise exactly one row is appended with a fresh id, the caller as owner and the validated (trimmed) fields; the reply is 201 with that row joined; integrity holds |
| Ledger.MatchCount | backend/routes/transactions.js:90 | the affected-row count is zero exactly when no row has that id and owner |
| Ledger.EditAll | backend/routes/transactions.js:84-86 | the `UPDATE` rewrites exactly the rows with that id and owner, keeps every id and owner, and leaves every other row and the row count as they were |
| Ledger.MatchCountAtMostOne | backend/routes/transactions.js:86 | with unique ids, `WHERE id = ? AND user_id = ?` matches at most one row |
| Ledger.UpdateTxn | backend/routes/transactions.js:83-102 | PUT /:id: a validation failure changes nothing; a row the caller does not own gives 404 and no change; otherwise exactly the matching row gets the five fields, the others stay, and the reply is that row joined |
| Ledger.DeleteTxn | backend/routes/transactions.js:113-122 | DELETE /:id: 404 and no change when the caller owns no row with that id; otherwise exactly that row is removed (the table shrinks by one) and the reply is the deleted message |
| Ledger.RemoveTxn | backend/routes/transactions.js:114 | the `DELETE` keeps exactly the rows without that id and owner, and shrinks the table by the affected-row count |
| Ledger.RemoveTxnValid | backend/routes/transactions.js:114 | deleting rows keeps the ids unique |
| Ledger.EditAllKeepsOthers | backend/routes/transactions.js:86 | an update never touches another user's rows |
| Ledger.RemoveTxnKeepsOthers | backend/routes/transactions.js:114 | a delete never removes another user's rows |
| Ledger.CreateTxnIsolated | backend/routes/transactions.js:43-46 | whatever one user creates, every other user's transaction list is unchanged |
| Ledger.UpdateTxnIsolated | backend/routes/transactions.js:83-88 | whatever one user updates, every other user's transaction list is unchanged |
| Ledger.DeleteTxnIsolated | backend/routes/transactions.js:113-116 | whatever one user deletes, every other user's transaction list is unchanged |
| Stats.GroupByMonth | backend/routes/transactions.js:133-139 | the one-pass grouping has a key exactly for the months some transaction falls in, and each key holds that month's filtered income and expense sums |
| Stats.MonthSumOfOtherMonths | backend/routes/transactions.js:135-136 | a month without transactions sums to zero |
| Stats.MonthsNewestFirst | backend/routes/transactions.js:139-140 | the distinct months of the transactions, strictly newest first |
| Stats.MonthlyRows | backend/routes/transactions.js:133-141 | at most twelve rows, each a month with a transaction and its two sums, strictly newest first; a month left out is older than the twelfth row |
| Stats.MonthlyStats | backend/routes/transactions.js:132-143 | the `monthly` reply: the same, over the caller's transactions only |
| Stats.GroupByCategory | backend/routes/transactions.js:149-153 | the one-pass grouping by category id has a key exactly for the ids some transaction uses, each holding the filtered sum |
| Stats.CategorySumUnused | backend/routes/transactions.js:149 | an id that no transaction uses sums to zero |
| Stats.JoinGroups | backend/routes/transactions.js:151 | the inner join keeps exactly the groups whose id names a category, one per category |
| Stats.CategoryTotals | backend/routes/transactions.js:145-156 | the `byCategory` reply: one entry per category a caller's transaction references, with the sum of those amounts; no category twice; largest total first |
| Categories.VisibleTo | backend/routes/categories.js:10 | `WHERE user_id IS NULL OR user_id = ?` keeps exactly the global categories and the caller's own |
| Categories.StringLeTotal | backend/routes/categories.js:10 | the name order is total, so the sort orders the list |
| Categories.ListCategories | backend/routes/categories.js:9-13 | GET /: a permutation of the visible categories, sorted by name |
| Categories.CategoryErrors | backend/routes/categories.js:24-25 | the 400 reply lists no field exactly when name and type validate |
| Categories.CategoryErrorFields | backend/routes/categories.js:58-59 | each field name is listed exactly when that field's own validator fails |
| Categories.CreateCategory | backend/routes/categories.js:36-46 | POST /: a validation failure changes nothing; otherwise exactly one category owned by the caller is appended with a fresh id and the trimmed name, and replied with 201; integrity holds |
| Categories.RenameAll | backend/routes/categories.js:71 | the `UPDATE` gives the new name and type to exactly the category with that id owned by the caller, keeps every id and owner, and leaves every other category as it was |
| Categories.OwnedIndex | backend/routes/categories.js:71 | finds a category with that id owned by the caller, or none exactly when there is none |
| Categories.UpdateCategory | backend/routes/categories.js:70-84 | PUT /:id: a validation failure changes nothing; 404 and no change unless the caller owns the id; otherwise exactly that category gets the new name and type, the reply carries the id, the trimmed name, the type and the caller; integrity holds |
| Categories.RemoveCategory | backend/routes/categories.js:108 | the `DELETE` keeps exactly the categories that do not have that id and owner |
| Categories.RemoveCategoryValid | backend/routes/categories.js:108 | deleting categories keeps the ids unique |
| Categories.RemoveOneCategory | backend/routes/categories.js:108-112 | with unique ids, a delete of an owned id removes exactly one row |
| Categories.DeleteCategory | backend/routes/categories.js:96-116 | DELETE /:id: 400 and no change while any transaction of any user references the id; then 404 and no change unless the caller owns it; otherwise exactly that category is removed |
| Categories.OthersCategoriesKept | backend/routes/categories.js:70-113 | a category not owned by the caller survives update and delete unchanged |
| Categories.GlobalCategoryPermanent | backend/routes/categories.js:10-113 | a global category is listed for every user and survives every user's update and delete |
| Categories.DeleteCategoryKeepsLedger | backend/routes/categories.js:96-110 | a category delete leaves every user's joined transaction list unchanged |
| Auth.RegisterErrors | backend/routes/auth.js:9-13 | the 400 reply lists no field exactly when e-mail, password (6 or more characters) and name validate |
| Auth.RegisterErrorFields | backend/routes/auth.js:10-12 | each field name is listed exactly when that field's own validator fails |
| Auth.FindUser | backend/routes/auth.js:24-29 | `SELECT * FROM users WHERE email = ?` finds a user with the address, or none exactly when there is none |
| Auth.FindUserUnique | backend/routes/auth.js:89 | with unique addresses, the user found is the only one with that address |
| Auth.Register | backend/routes/auth.js:16-56 | a validation failure changes nothing; a taken address gives 400 and no change; otherwise exactly one user is appended with a fresh id, the normalised address, the trimmed name and a salted digest; the reply is 201 with a one-day token for the new id and the public fields |
| Auth.LoginErrors | backend/routes/auth.js:66-69 | the 400 reply lists no field exactly when the address validates and a password is present |
| Auth.LoginErrorFields | backend/routes/auth.js:67-68 | each field name is listed exactly when that field's own validator fails |
| Auth.Login | backend/routes/auth.js:72-110 | a validation failure gives the 400 list; otherwise login succeeds exactly when a user has the normalised address and the password matches its digest, and then replies with a one-day token for that user and its public fields; every other case gets the one "Invalid credentials" reply |
| Auth.RegisterThenLogin | backend/routes/auth.js:38-110 | a user who has just registered can log in with the same address and password and gets back the id, name and address registration replied with |
| Auth.SessionsLastOneDay | backend/routes/auth.js:43-101 | every token register or login hands out names the user the reply describes, is issued at the request time and expires one day later |
| Dashboard.BalanceIsSignedSum | frontend/src/components/Dashboard/Dashboard.jsx:257 | the balance shown is the sum over the transactions of plus income and minus expense amounts, with other types and non-numbers counting zero |
| Dashboard.TotalOfAppend | frontend/src/components/Dashboard/Dashboard.jsx:118-124 | the income and expense totals of a list are the totals of its parts added |
| Dashboard.FromServer | frontend/src/components/Dashboard/Dashboard.jsx:83-86 | the dashboard holds one entry per row of GET /transactions, in order, with its amount a number and its type spelled so that parsing it gives back the row's polarity |
| Dashboard.OtherTypesIgnored | frontend/src/components/Dashboard/Dashboard.jsx:118-124 | a transaction of another type, or whose amount is not a number, leaves a total unchanged |
| Dashboard.RowsTotalPermutation | frontend/src/components/Dashboard/Dashboard.jsx:118-124 | the totals do not depend on the order the list arrives in |
| Dashboard.DashboardMatchesLedger | frontend/src/components/Dashboard/Dashboard.jsx:77-124 | the income and expense figures computed from GET /transactions are the caller's income and expense sums in the table, and the balance is their difference |
| Dashboard.Expenses | frontend/src/components/Dashboard/Dashboard.jsx:93-94 | the chart starts from exactly the `byCategory` rows of expense type |
| Dashboard.Merge | frontend/src/components/Dashboard/Dashboard.jsx:92-98 | the `Map` has an entry exactly for each name among the rows, holding the sum of that name's totals, in the order the names first appear |
| Dashboard.PutNew | frontend/src/components/Dashboard/Dashboard.jsx:97 | `Map.set` of a new key appends it |
| Dashboard.PutExisting | frontend/src/components/Dashboard/Dashboard.jsx:96-97 | `Map.set` of an existing key updates it in place and leaves the other entries |
| Dashboard.Positive | frontend/src/components/Dashboard/Dashboard.jsx:101 | the filter keeps exactly the entries with a positive value |
| Dashboard.PositiveKeepsOrder | frontend/src/components/Dashboard/Dashboard.jsx:100-101 | the filter keeps the first-appearance order |
| Dashboard.ChartData | frontend/src/components/Dashboard/Dashboard.jsx:91-106 | one slice per expense category name whose merged total is positive, carrying that total; no name twice; first-appearance order |

## Left out

- HTTP and Express wiring, JSON encoding, and the 500 replies on database errors are not modelled.
- The authentication middleware is not modelled; the authenticated user id is the `caller` parameter of each route.
- Concurrency is not modelled. Each route is one atomic step, so the gap between delete's count query and its delete is absent.
- Store.Valid: unique e-mail addresses are assumed, not enforced by a schema. Register checks for the address and then inserts, in two statements. Two concurrent registrations of one address can therefore both succeed, and `Login`'s "the one user with this address" would then not hold; the model runs routes one at a time and does not cover this race.
- The 404 test of the two update routes (`affectedRows === 0`, transactions.js:90 and categories.js:75) is modelled as "no row has that id and owner". This assumes the driver reports matched rows, as mysql2 does by default (the `FOUND_ROWS` client flag). Without that flag, an update that rewrites identical values would report zero affected rows and answer 404.
- bcrypt is not modelled. The digest is the function `hash` of the `Env` parameter, and `genSalt`'s random salt is the `salt` parameter.
- JSON Web Tokens are modelled only as their claims (user id, issue time and expiry). The signature and the secret are left out, and the clock is the `now` parameter.
- The validator library's `isEmail` and `normalizeEmail` are not modelled; they are functions of the `Env` parameter.
- Ledger.CreateTxn and Ledger.Edited: the stored date is the calendar date the client sent. In the source, `toDate()` (transactions.js:31, 71) turns the `"YYYY-MM-DD"` text into a `Date` at UTC midnight. The connection pool sets no `timezone` (server.js:23-31), so the driver writes that instant in the server's local time. West of UTC the stored date is the day before, which moves the transaction to the previous day, and possibly the previous month in the monthly statistics. The model's dates are exact only for a server at UTC or east of it; the time-zone conversion is not modelled.
- `isFloat`, `isInt`, `isISO8601().toDate()` and `exists()` are not modelled as parsers. Each appears as an already-parsed `Option` field of the request, where `None` means the validator failed.
- Auth.RegisterErrors: the password length test counts code points. validator.js's `isLength` (auth.js:11) does not count the variation selectors U+FE0E and U+FE0F, so five characters plus a selector pass the model's test and get a 400 from the source.
- Auth.Login and Auth.RegisterErrors: passwords are modelled as strings only (`LoginInput.password` is a string when present). A JSON `null` passes login's `exists()` (auth.js:68), and a number passes `isLength` once stringified; bcryptjs then throws in `compare` (auth.js:92) or `hash` (auth.js:35), and the route answers 500. The model's `Login` would answer "Invalid credentials" or succeed instead.
- A field missing from a register body is modelled as the empty string, which every register validator rejects.
- Money is modelled as integer cents, not floating point. On the dashboard, `parseFloat` producing `NaN` is `None`.
- MySQL collation is not modelled. `ORDER BY name` and e-mail equality are compared by code point; MySQL's default collation is case-insensitive.
- SQL leaves the order of rows with equal sort keys open. The model's stable sort fixes one such order, and the contracts promise only an ordered permutation.
- `DATE_FORMAT(date, '%Y-%m')` is modelled as the (year, month) pair it encodes. Its string order equals this pair order for four-digit years.
- Path parameters are taken as integers. The string-to-number coercion MySQL applies to `req.params.id` and `parseInt` are not modelled.
- Stats.Stats: the reply assembly only projects `CategoryTotals`; its properties are stated on `MonthlyStats` and `CategoryTotals`.
- The dashboard's state hooks, icons, colours and currency formatting are not modelled. Neither are the other components (transaction list and the add/edit forms) or `server.js`.
- Dashboard.Merge: `parseFloat(cat.total)` is taken to be the integer total itself. The SQL `SUM` arrives as a decimal string, and its parsing is not modelled.

## Notes on the source

- The category delete counts transactions of every user that carry the id, not only the caller's (categories.js:97). A user therefore cannot delete their own category while another user's transaction references its id. The model keeps this behaviour (`Store.UsesCategory`).
- Transactions are not checked against the categories table. A transaction may reference a category id that does not exist or that belongs to another user. Both the list and the statistics then treat it as the join does: the left join gives NULL name and type, and the inner join drops the transaction from `byCategory`.
- Update replies with the row re-read by id (transactions.js:94-102). It is the row just written, because ids are unique.

=== FILE: auth.dfy ===
/** The authentication routes: register and login. The e-mail validator, the
    e-mail normaliser and the password digest are library code and enter as
    functions of an environment; the salt and the clock are parameters. */
module Auth {
  import opened Common
  import opened Store

  /** The library functions the routes call. `hash(salt, password)` is the
      digest `bcrypt.hash` computes; `bcrypt.compare` recomputes it with the
      stored salt. */
  datatype Env = Env(isEmail: string -> bool, normalizeEmail: string -> string,
                     hash: (nat, string) -> string)

  /** Token lifetime, one day, in seconds. */
  const OneDay := 86400

  /** The claims of a signed token: the user id, and its issue and expiry
      times. The signature itself is left out. */
  datatype Token = Token(userId: nat, issuedAt: int, expiresAt: int)

  /** The `user` object of a reply: no password field exists to leak. */
  datatype PublicUser = PublicUser(id: nat, name: string, email: string)

  datatype Session = Session(token: Token, user: PublicUser)

  const UserExists := "User already exists"
  const InvalidCredentials := "Invalid credentials"

  /** The token signed at `now` for user `id`, valid for one day. */
  function Issue(id: nat, now: int): (t: Token)
    ensures t.userId == id && t.issuedAt == now
    ensures t.expiresAt - t.issuedAt == OneDay
  {
    Token(id, now, now + OneDay)
  }

  function Public(u: User): PublicUser
  {
    PublicUser(u.id, u.name, u.email)
  }

  /** The request body of register. A missing field is the empty string, which
      every validator of register rejects. */
  datatype RegisterInput = RegisterInput(email: string, password: string, name: string)

  /** The validators of register, in declaration order: each field is
      reported exactly when its own validator fails. The password's length is
      counted in code points. */
  function RegisterErrors(env: Env, inp: RegisterInput): (errs: seq<string>)
    ensures errs == [] <==> env.isEmail(inp.email) && |inp.password| >= 6 && !Blank(inp.name)
  {
    (if !env.isEmail(inp.email) then ["email"] else [])
    + (if |inp.password| < 6 then ["password"] else [])
    + (if Blank(inp.name) then ["name"] else [])
  }

  /** Each field is reported exactly when its own validator fails. */
  lemma RegisterErrorFields(env: Env, inp: RegisterInput)
    ensures forall f :: f in RegisterErrors(env, inp) <==>
              || (f == "email" && !env.isEmail(inp.email))
              || (f == "password" && |inp.password| < 6)
              || (f == "name" && Blank(inp.name))
  {
  }

  /** Some user has the address. */
  predicate EmailTaken(us: seq<User>, email: string)
  {
    exists u :: u in us && u.email == email
  }

  /** The first user, in table order, with the address. */
  function FindUser(us: seq<User>, email: string): (r: Option<User>)
    ensures r.None? <==> !EmailTaken(us, email)
    ensures r.Some? ==> r.value in us && r.value.email == email
  {
    if |us| == 0 then None
    else if us[0].email == email then Some(us[0])
    else
      var r := FindUser(us[1..], email);
      assert EmailTaken(us, email) <==> EmailTaken(us[1..], email) by {
        assert us == [us[0]] + us[1..];
        if EmailTaken(us, email) {
          var u :| u in us && u.email == email;
          assert u in us[1..];
        }
      }
      r
  }

  /** With unique e-mail addresses, the user found is the only one with that address. */
  lemma FindUserUnique(us: seq<User>, next: nat, u: User)
    requires UsersValid(us, next) && u in us
    ensures FindUser(us, u.email) == Some(u)
  {
    var r := FindUser(us, u.email);
    var i :| 0 <= i < |us| && us[i] == u;
    var j :| 0 <= j < |us| && us[j] == r.value;
    assert i == j;
  }

  /** POST /register: stores the user under the next id with the normalised
      e-mail address, the trimmed name and a salted digest of the password,
      and replies 201 with a token for the new id and the public fields. */
  function Register(env: Env, db: Db, inp: RegisterInput, salt: nat, now: int): (out: Outcome<Session>)
    requires Valid(db)
    ensures Valid(out.db)
    ensures out.db.categories == db.categories && out.db.transactions == db.transactions
    ensures |db.users| <= |out.db.users| && out.db.users[..|db.users|] == db.users
    ensures RegisterErrors(env, inp) != [] ==> out == Outcome(Invalid(RegisterErrors(env, inp)), db)
    ensures RegisterErrors(env, inp) == [] && EmailTaken(db.users, env.normalizeEmail(inp.email)) ==>
              out == Outcome(Refused(400, UserExists), db)
    ensures RegisterErrors(env, inp) == [] && !EmailTaken(db.users, env.normalizeEmail(inp.email)) ==>
              && |out.db.users| == |db.users| + 1
              && var u := out.db.users[|db.users|];
                 && (forall v :: v in db.users ==> v.id != u.id)
                 && u.name == Trim(inp.name)
                 && u.email == env.normalizeEmail(inp.email)
                 && u.password == PasswordHash(salt, env.hash(salt, inp.password))
                 && out.reply == Ok(201, Session(Token(u.id, now, now + OneDay),
                                                 PublicUser(u.id, u.name, u.email)))
  {
    var errs := RegisterErrors(env, inp);
    var email := env.normalizeEmail(inp.email);
    if errs != [] then Outcome(Invalid(errs), db)
    else if FindUser(db.users, email).Some? then Outcome(Refused(400, UserExists), db)
    else
      var u := User(db.nextUserId, Trim(inp.name), email, PasswordHash(salt, env.hash(salt, inp.password)));
      var us := db.users + [u];
      assert us[..|db.users|] == db.users;
      AddUserValid(db, u);
      Outcome(Ok(201, Session(Issue(u.id, now), Public(u))),
              db.(users := us, nextUserId := db.nextUserId + 1))
  }

  /** A user under the next id with an address nobody has keeps the table valid. */
  lemma AddUserValid(db: Db, u: User)
    requires Valid(db) && u.id == db.nextUserId && !EmailTaken(db.users, u.email)
    ensures Valid(db.(users := db.users + [u], nextUserId := db.nextUserId + 1))
  {
    var us := db.users + [u];
    forall i, j | 0 <= i < j < |us| ensures us[i].id != us[j].id && us[i].email != us[j].email {
      if j == |db.users| {
        assert us[i] in db.users;
      }
    }
  }

  /** The request body of login: `password` only has to be present. */
  datatype LoginInput = LoginInput(email: string, password: Option<string>)

  function LoginErrors(env: Env, inp: LoginInput): (errs: seq<string>)
    ensures errs == [] <==> env.isEmail(inp.email) && inp.password.Some?
  {
    (if !env.isEmail(inp.email) then ["email"] else []) + (if inp.password.None? then ["password"] else [])
  }

  /** Each field is reported exactly when its own validator fails. */
  lemma LoginErrorFields(env: Env, inp: LoginInput)
    ensures forall f :: f in LoginErrors(env, inp) <==>
              || (f == "email" && !env.isEmail(inp.email))
              || (f == "password" && inp.password.None?)
  {
  }

  /** The password digests, under the stored salt, to the stored digest. */
  predicate Authenticates(env: Env, u: User, password: string)
  {
    env.hash(u.password.salt, password) == u.password.digest
  }

  /** POST /login: replies with a token and the stored user's public fields
      when a user has the normalised address and the password matches its
      digest. An unknown address and a wrong password get the same reply.
      Login changes no table, so it returns no database. */
  function Login(env: Env, db: Db, inp: LoginInput, now: int): (r: Reply<Session>)
    requires Valid(db)
    ensures LoginErrors(env, inp) != [] ==> r == Invalid(LoginErrors(env, inp))
    ensures LoginErrors(env, inp) == [] ==> (r.Ok? || r == Refused(400, InvalidCredentials))
    ensures LoginErrors(env, inp) == [] ==>
              (r.Ok? <==> exists u :: u in db.users && u.email == env.normalizeEmail(inp.email)
                                      && Authenticates(env, u, inp.password.value))
    ensures r.Ok? ==>
              exists u :: u in db.users && u.email == env.normalizeEmail(inp.email)
                          && Authenticates(env, u, inp.password.value)
                          && r == Ok(200, Session(Token(u.id, now, now + OneDay), Public(u)))
  {
    var errs := LoginErrors(env, inp);
    if errs != [] then Invalid(errs)
    else
      match FindUser(db.users, env.normalizeEmail(inp.email))
      case None => Refused(400, InvalidCredentials)
      case Some(u) =>
        assert forall v :: v in db.users && v.email == u.email ==> v == u by {
          forall v | v in db.users && v.email == u.email ensures v == u {
            FindUserUnique(db.users, db.nextUserId, v);
          }
        }
        if !Authenticates(env, u, inp.password.value) then Refused(400, InvalidCredentials)
        else Ok(200, Session(Issue(u.id, now), Public(u)))
  }

  /** A user who has just registered can log in with the same address and
      password, and gets back the id, name and address the registration
      replied with. */
  lemma RegisterThenLogin(env: Env, db: Db, inp: RegisterInput, salt: nat, now: int, later: int)
    requires Valid(db)
    requires Register(env, db, inp, salt, now).reply.Ok?
    ensures var out := Register(env, db, inp, salt, now);
            Login(env, out.db, LoginInput(inp.email, Some(inp.password)), later)
              == Ok(200, Session(Issue(out.reply.body.user.id, later), out.reply.body.user))
  {
    var out := Register(env, db, inp, salt, now);
    var u := out.db.users[|db.users|];
    assert u in out.db.users;
    FindUserUnique(out.db.users, out.db.nextUserId, u);
  }

  /** Every token either route hands out names the user the reply describes,
      is issued at the time of the request, and expires one day later. */
  lemma SessionsLastOneDay(env: Env, db: Db, reg: RegisterInput, login: LoginInput, salt: nat, now: int)
    requires Valid(db)
    ensures var r := Register(env, db, reg, salt, now).reply;
            r.Ok? ==> && r.body.token.userId == r.body.user.id
                      && r.body.token.issuedAt == now
                      && r.body.token.expiresAt == now + OneDay
    ensures var r := Login(env, db, login, now);
            r.Ok? ==> && r.body.token.userId == r.body.user.id
                      && r.body.token.issuedAt == now
                      && r.body.token.expiresAt == now + OneDay
  {
  }
}

=== FILE: categories.dfy ===
/** The category routes: list, create, update and delete. A category is either
    global (no owner, shared by everyone) or owned by one user; only owned
    categories can be changed, and only by their owner. */
module Categories {
  import opened Common
  import opened Store
  import opened Sorting
  import Ledger

  /** The request body of create and update. */
  datatype CategoryInput = CategoryInput(name: string, typeName: string)

  const NotOwned := "Category not found or not owned by user"
  const InUse := "Cannot delete category that is being used by transactions"
  const CategoryDeleted := "Category deleted"

  /** The category is global or the caller's own. */
  predicate Visible(c: Category, caller: nat)
  {
    c.owner == None || c.owner == Some(caller)
  }

  /** The categories `caller` may list, in table order. */
  function VisibleTo(cs: seq<Category>, caller: nat): (r: seq<Category>)
    ensures forall c :: c in r <==> c in cs && Visible(c, caller)
    ensures |r| <= |cs|
  {
    if |cs| == 0 then []
    else (if Visible(cs[0], caller) then [cs[0]] else []) + VisibleTo(cs[1..], caller)
  }

  /** Lexicographic order of strings by code point: `a` is a prefix of `b`, or
      `a` has the smaller character where they first differ. */
  predicate StringLe(a: string, b: string)
  {
    |a| == 0 || (|b| > 0 && (a[0] < b[0] || (a[0] == b[0] && StringLe(a[1..], b[1..]))))
  }

  lemma {:induction false} StringLeTotal(a: string, b: string)
    ensures StringLe(a, b) || StringLe(b, a)
  {
    if |a| > 0 && |b| > 0 && a[0] == b[0] {
      StringLeTotal(a[1..], b[1..]);
    }
  }

  /** The list order: by name. */
  predicate NameLe(a: Category, b: Category)
  {
    StringLe(a.name, b.name)
  }

  lemma NameLeTotal()
    ensures Total(NameLe)
  {
    forall a: Category, b: Category ensures NameLe(a, b) || NameLe(b, a) {
      StringLeTotal(a.name, b.name);
    }
  }

  /** GET /: the global categories and the caller's own, by name. */
  function ListCategories(db: Db, caller: nat): (rows: seq<Category>)
    ensures multiset(rows) == multiset(VisibleTo(db.categories, caller))
    ensures forall c :: c in rows <==> c in db.categories && Visible(c, caller)
    ensures forall i :: 0 < i < |rows| ==> StringLe(rows[i - 1].name, rows[i].name)
  {
    var mine := VisibleTo(db.categories, caller);
    var rows := SortBy(mine, NameLe);
    NameLeTotal();
    SameElements(rows, mine);
    rows
  }

  /** The validators of create and update, in declaration order: each field
      is reported exactly when its own validator fails. */
  function CategoryErrors(inp: CategoryInput): (errs: seq<string>)
    ensures errs == [] <==> !Blank(inp.name) && ParseKind(inp.typeName).Some?
  {
    (if Blank(inp.name) then ["name"] else [])
    + (if ParseKind(inp.typeName).None? then ["type"] else [])
  }

  /** Each field is reported exactly when its own validator fails. */
  lemma CategoryErrorFields(inp: CategoryInput)
    ensures forall f :: f in CategoryErrors(inp) <==>
              || (f == "name" && Blank(inp.name))
              || (f == "type" && ParseKind(inp.typeName).None?)
  {
  }

  lemma AddCategoryValid(db: Db, c: Category)
    requires Valid(db) && c.id == db.nextCategoryId
    ensures Valid(db.(categories := db.categories + [c], nextCategoryId := db.nextCategoryId + 1))
    ensures forall d :: d in db.categories ==> d.id != c.id
  {
    var cs := db.categories + [c];
    forall d | d in db.categories ensures d.id != c.id {
      var i :| 0 <= i < |db.categories| && db.categories[i] == d;
    }
    forall i, j | 0 <= i < j < |cs| ensures cs[i].id != cs[j].id {
      if j == |db.categories| {
        assert cs[i].id < db.nextCategoryId;
      }
    }
  }

  /** POST /: appends a category owned by the caller under the next id and
      replies 201 with it; the name is stored trimmed, as the sanitizer left it. */
  function CreateCategory(db: Db, caller: nat, inp: CategoryInput): (out: Outcome<Category>)
    requires Valid(db)
    ensures Valid(out.db)
    ensures out.db.users == db.users && out.db.transactions == db.transactions
    ensures CategoryErrors(inp) != [] ==> out == Outcome(Invalid(CategoryErrors(inp)), db)
    ensures CategoryErrors(inp) == [] ==>
              && |out.db.categories| == |db.categories| + 1
              && out.db.categories[..|db.categories|] == db.categories
              && var c := out.db.categories[|db.categories|];
                 && (forall d :: d in db.categories ==> d.id != c.id)
                 && c.name == Trim(inp.name) && Some(c.kind) == ParseKind(inp.typeName)
                 && c.owner == Some(caller)
                 && out.reply == Ok(201, c)
  {
    var errs := CategoryErrors(inp);
    if errs != [] then Outcome(Invalid(errs), db)
    else
      var c := Category(db.nextCategoryId, Trim(inp.name), ParseKind(inp.typeName).value, Some(caller));
      var cs := db.categories + [c];
      assert cs[..|db.categories|] == db.categories;
      AddCategoryValid(db, c);
      Outcome(Ok(201, c), db.(categories := cs, nextCategoryId := db.nextCategoryId + 1))
  }

  /** The category has that id and the caller owns it; a global category never matches. */
  predicate Owned(c: Category, caller: nat, id: int)
  {
    c.id == id && c.owner == Some(caller)
  }

  predicate OwnsCategory(cs: seq<Category>, caller: nat, id: int)
  {
    exists c :: c in cs && Owned(c, caller, id)
  }

  /** The categories table after the caller's category with that id gets the new name and type. */
  function RenameAll(cs: seq<Category>, caller: nat, id: int, inp: CategoryInput): (r: seq<Category>)
    requires CategoryErrors(inp) == []
    ensures |r| == |cs|
    ensures forall i :: 0 <= i < |cs| ==>
              r[i] == if Owned(cs[i], caller, id)
                      then cs[i].(name := Trim(inp.name), kind := ParseKind(inp.typeName).value)
                      else cs[i]
    ensures forall i :: 0 <= i < |cs| ==> r[i].id == cs[i].id && r[i].owner == cs[i].owner
    ensures forall c :: c in r && !Owned(c, caller, id) <==> c in cs && !Owned(c, caller, id)
  {
    seq(|cs|, i requires 0 <= i < |cs| =>
          if Owned(cs[i], caller, id)
          then cs[i].(name := Trim(inp.name), kind := ParseKind(inp.typeName).value)
          else cs[i])
  }

  /** The position of the caller's category with that id, if there is one. */
  function OwnedIndex(cs: seq<Category>, caller: nat, id: int): (r: Option<nat>)
    ensures r.None? <==> !OwnsCategory(cs, caller, id)
    ensures r.Some? ==> r.value < |cs| && Owned(cs[r.value], caller, id)
  {
    if |cs| == 0 then None
    else if Owned(cs[0], caller, id) then Some(0)
    else
      match OwnedIndex(cs[1..], caller, id)
      case None =>
        assert !OwnsCategory(cs, caller, id) by {
          assert cs == [cs[0]] + cs[1..];
        }
        None
      case Some(k) => Some(k + 1)
  }

  lemma RenameAllValid(cs: seq<Category>, next: nat, caller: nat, id: int, inp: CategoryInput)
    requires CategoryErrors(inp) == [] && CategoriesValid(cs, next)
    ensures CategoriesValid(RenameAll(cs, caller, id, inp), next)
  {
    var r := RenameAll(cs, caller, id, inp);
    assert forall k :: 0 <= k < |r| ==> r[k].id == cs[k].id;
  }

  lemma RenameNothing(cs: seq<Category>, caller: nat, id: int, inp: CategoryInput)
    requires CategoryErrors(inp) == [] && !OwnsCategory(cs, caller, id)
    ensures RenameAll(cs, caller, id, inp) == cs
  {
    var r := RenameAll(cs, caller, id, inp);
    forall k | 0 <= k < |cs| ensures r[k] == cs[k] {
      assert cs[k] in cs;
    }
  }

  /** PUT /:id: renames and re-types the caller's category with that id and
      replies with it; 404 when the caller owns no such category. */
  function UpdateCategory(db: Db, caller: nat, id: int, inp: CategoryInput): (out: Outcome<Category>)
    requires Valid(db)
    ensures Valid(out.db)
    ensures out.db.users == db.users && out.db.transactions == db.transactions
    ensures CategoryErrors(inp) != [] ==> out == Outcome(Invalid(CategoryErrors(inp)), db)
    ensures CategoryErrors(inp) == [] && !OwnsCategory(db.categories, caller, id) ==>
              out == Outcome(Refused(404, NotOwned), db)
    ensures CategoryErrors(inp) == [] && OwnsCategory(db.categories, caller, id) ==>
              && |out.db.categories| == |db.categories|
              && (forall i :: 0 <= i < |db.categories| ==>
                    var c := db.categories[i];
                    out.db.categories[i] ==
                      if Owned(c, caller, id)
                      then Category(c.id, Trim(inp.name), ParseKind(inp.typeName).value, c.owner)
                      else c)
              && out.reply.Ok? && out.reply.status == 200
              && out.reply.body.id == id && out.reply.body.owner == Some(caller)
              && out.reply.body.name == Trim(inp.name)
              && Some(out.reply.body.kind) == ParseKind(inp.typeName)
              && out.reply.body in out.db.categories
  {
    var errs := CategoryErrors(inp);
    if errs != [] then Outcome(Invalid(errs), db)
    else
      var cs := RenameAll(db.categories, caller, id, inp);
      match OwnedIndex(db.categories, caller, id)
      case None =>
        RenameNothing(db.categories, caller, id, inp);
        Outcome(Refused(404, NotOwned), db)
      case Some(i) =>
        RenameAllValid(db.categories, db.nextCategoryId, caller, id, inp);
        var c := Category(db.categories[i].id, Trim(inp.name), ParseKind(inp.typeName).value, Some(caller));
        assert cs[i] == c;
        Outcome(Ok(200, c), db.(categories := cs))
  }

  /** The table after deleting the categories with that id owned by the caller. */
  function RemoveCategory(cs: seq<Category>, caller: nat, id: int): (r: seq<Category>)
    ensures forall c :: c in r <==> c in cs && !Owned(c, caller, id)
    ensures |r| <= |cs|
  {
    if |cs| == 0 then []
    else (if Owned(cs[0], caller, id) then [] else [cs[0]]) + RemoveCategory(cs[1..], caller, id)
  }

  lemma {:induction false} RemoveCategoryValid(cs: seq<Category>, next: nat, caller: nat, id: int)
    requires CategoriesValid(cs, next)
    ensures CategoriesValid(RemoveCategory(cs, caller, id), next)
  {
    if |cs| > 0 {
      assert CategoriesValid(cs[1..], next);
      RemoveCategoryValid(cs[1..], next, caller, id);
      var rest := RemoveCategory(cs[1..], caller, id);
      forall k | 0 <= k < |rest| ensures rest[k].id != cs[0].id {
        assert rest[k] in cs[1..];
      }
    }
  }

  lemma {:induction false} NothingOwned(cs: seq<Category>, caller: nat, id: int)
    requires !OwnsCategory(cs, caller, id)
    ensures RemoveCategory(cs, caller, id) == cs
  {
    if |cs| > 0 {
      assert cs[0] in cs;
      assert !OwnsCategory(cs[1..], caller, id);
      NothingOwned(cs[1..], caller, id);
      assert cs == [cs[0]] + cs[1..];
    }
  }

  /** DELETE /:id: refuses with 400 while any transaction references the id,
      whoever owns it and whoever owns the category; otherwise removes the
      caller's category with that id, or answers 404 when there is none. */
  function DeleteCategory(db: Db, caller: nat, id: int): (out: Outcome<string>)
    requires Valid(db)
    ensures Valid(out.db)
    ensures out.db.users == db.users && out.db.transactions == db.transactions
    ensures UsesCategory(db.transactions, id) ==> out == Outcome(Refused(400, InUse), db)
    ensures !UsesCategory(db.transactions, id) && !OwnsCategory(db.categories, caller, id) ==>
              out == Outcome(Refused(404, NotOwned), db)
    ensures !UsesCategory(db.transactions, id) && OwnsCategory(db.categories, caller, id) ==>
              && out.reply == Ok(200, CategoryDeleted)
              && |out.db.categories| == |db.categories| - 1
              && forall c :: c in out.db.categories <==> c in db.categories && !Owned(c, caller, id)
  {
    if exists i :: 0 <= i < |db.transactions| && db.transactions[i].categoryId == id then
      Outcome(Refused(400, InUse), db)
    else
      var cs := RemoveCategory(db.categories, caller, id);
      RemoveCategoryValid(db.categories, db.nextCategoryId, caller, id);
      if cs == db.categories then
        assert !OwnsCategory(db.categories, caller, id);
        Outcome(Refused(404, NotOwned), db)
      else
        assert OwnsCategory(db.categories, caller, id) by {
          if !OwnsCategory(db.categories, caller, id) {
            NothingOwned(db.categories, caller, id);
          }
        }
        assert |cs| == |db.categories| - 1 by {
          RemoveOneCategory(db.categories, db.nextCategoryId, caller, id);
        }
        Outcome(Ok(200, CategoryDeleted), db.(categories := cs))
  }

  /** With unique ids exactly one row goes when the caller owns the id. */
  lemma {:induction false} RemoveOneCategory(cs: seq<Category>, next: nat, caller: nat, id: int)
    requires CategoriesValid(cs, next) && OwnsCategory(cs, caller, id)
    ensures |RemoveCategory(cs, caller, id)| == |cs| - 1
  {
    assert CategoriesValid(cs[1..], next);
    if Owned(cs[0], caller, id) {
      assert !OwnsCategory(cs[1..], caller, id);
      NothingOwned(cs[1..], caller, id);
    } else {
      assert OwnsCategory(cs[1..], caller, id) by {
        var c :| c in cs && Owned(c, caller, id);
        assert cs == [cs[0]] + cs[1..];
        assert c in cs[1..];
      }
      RemoveOneCategory(cs[1..], next, caller, id);
    }
  }

  /** Only the caller's own categories are ever changed: every category with
      another owner, or with none, survives update and delete unchanged. */
  lemma OthersCategoriesKept(db: Db, caller: nat, id: int, inp: CategoryInput, c: Category)
    requires Valid(db) && c in db.categories && c.owner != Some(caller)
    ensures c in UpdateCategory(db, caller, id, inp).db.categories
    ensures c in DeleteCategory(db, caller, id).db.categories
  {
    if CategoryErrors(inp) == [] && OwnsCategory(db.categories, caller, id) {
      assert !Owned(c, caller, id);
    }
  }

  /** A global category is visible to every user and no route of any user
      removes or alters it. */
  lemma GlobalCategoryPermanent(db: Db, caller: nat, other: nat, id: int, inp: CategoryInput, c: Category)
    requires Valid(db) && c in db.categories && c.owner == None
    ensures c in ListCategories(db, other)
    ensures c in UpdateCategory(db, caller, id, inp).db.categories
    ensures c in DeleteCategory(db, caller, id).db.categories
  {
    OthersCategoriesKept(db, caller, id, inp, c);
  }

  /** A transaction joins the same way to a table and to that table with
      categories it does not reference removed. */
  lemma {:induction false} JoinIgnoresUnreferenced(ts: seq<Txn>, cs: seq<Category>, cs': seq<Category>)
    requires CategoryIdsUnique(cs) && CategoryIdsUnique(cs')
    requires forall c :: c in cs' ==> c in cs
    requires forall c, t :: c in cs && t in ts && c.id == t.categoryId ==> c in cs'
    ensures Ledger.JoinAll(ts, cs') == Ledger.JoinAll(ts, cs)
  {
    forall i | 0 <= i < |ts| ensures Ledger.Join(ts[i], cs') == Ledger.Join(ts[i], cs) {
      assert ts[i] in ts;
      var r := Ledger.Join(ts[i], cs);
      var r' := Ledger.Join(ts[i], cs');
      if r.categoryName.Some? {
        var c :| c in cs && c.id == ts[i].categoryId;
        assert c in cs';
      }
    }
  }

  /** Deleting a category changes no user's transaction list: a category that
      some transaction references is never deleted. */
  lemma DeleteCategoryKeepsLedger(db: Db, caller: nat, id: int, user: nat)
    requires Valid(db)
    ensures Ledger.ListTxns(DeleteCategory(db, caller, id).db, user) == Ledger.ListTxns(db, user)
  {
    var db' := DeleteCategory(db, caller, id).db;
    var mine := TxnsOf(db.transactions, user);
    JoinIgnoresUnreferenced(mine, db.categories, db'.categories);
  }
}

=== FILE: common.dfy ===
/** Vocabulary shared by every route: optional values, the income/expense
    polarity, calendar dates, the whitespace trimming done by the request
    validators, and the shape of an HTTP reply. */
module Common {

  datatype Option<+T> = None | Some(value: T)

  /** The polarity of a category or a transaction. */
  datatype Kind = Income | Expense

  /** The wire spelling of a polarity. */
  function KindName(k: Kind): (s: string)
    ensures ParseKind(s) == Some(k)
  {
    match k
    case Income => "income"
    case Expense => "expense"
  }

  /** The type validator: exactly the two spellings of a polarity are accepted. */
  function ParseKind(s: string): (k: Option<Kind>)
    ensures k.Some? <==> s == "income" || s == "expense"
    ensures k == Some(Income) <==> s == "income"
    ensures k == Some(Expense) <==> s == "expense"
  {
    if s == "income" then Some(Income)
    else if s == "expense" then Some(Expense)
    else None
  }

  /** A calendar date as stored in the `date` column. */
  datatype Date = Date(year: int, month: int, day: int)

  /** Chronological order of dates (the order `ORDER BY date` uses). */
  predicate DateLe(a: Date, b: Date)
  {
    a.year < b.year
    || (a.year == b.year && (a.month < b.month || (a.month == b.month && a.day <= b.day)))
  }

  /** The characters the validator's `trim()` sanitizer strips: those matched
      by a JavaScript `\s` class. */
  predicate IsSpace(c: char)
  {
    c == ' ' || c == '\t' || c == '\n' || c == '\r' || c == '\U{B}' || c == '\U{C}'
    || c == '\U{A0}' || c == '\U{1680}' || ('\U{2000}' <= c <= '\U{200A}')
    || c == '\U{2028}' || c == '\U{2029}' || c == '\U{202F}' || c == '\U{205F}'
    || c == '\U{3000}' || c == '\U{FEFF}'
  }

  function TrimStart(s: string): (r: string)
    ensures |r| <= |s| && r == s[|s| - |r|..]
    ensures forall i :: 0 <= i < |s| - |r| ==> IsSpace(s[i])
    ensures |r| > 0 ==> !IsSpace(r[0])
  {
    if |s| > 0 && IsSpace(s[0]) then TrimStart(s[1..]) else s
  }

  function TrimEnd(s: string): (r: string)
    ensures |r| <= |s| && r == s[..|r|]
    ensures forall i :: |r| <= i < |s| ==> IsSpace(s[i])
    ensures |r| > 0 ==> !IsSpace(r[|r| - 1])
  {
    if |s| > 0 && IsSpace(s[|s| - 1]) then TrimEnd(s[..|s| - 1]) else s
  }

  /** `r` is `s` with its first `i` characters and everything after `r`
      removed, and what was removed is whitespace. */
  predicate StripsTo(s: string, i: int, r: string)
  {
    && 0 <= i <= |s| - |r|
    && r == s[i..i + |r|]
    && (forall k :: 0 <= k < i ==> IsSpace(s[k]))
    && (forall k :: i + |r| <= k < |s| ==> IsSpace(s[k]))
  }

  /** The `trim()` sanitizer: `s` without its leading and trailing
      whitespace; it is empty exactly when `s` is all whitespace. */
  function Trim(s: string): (r: string)
    ensures |r| <= |s|
    ensures exists i :: StripsTo(s, i, r)
    ensures |r| > 0 ==> !IsSpace(r[0]) && !IsSpace(r[|r| - 1])
    ensures |r| == 0 <==> forall i :: 0 <= i < |s| ==> IsSpace(s[i])
  {
    TrimStrips(s);
    TrimEnd(TrimStart(s))
  }

  /** Trimming the start and then the end of `s` strips it down to a slice. */
  lemma TrimStrips(s: string)
    ensures StripsTo(s, |s| - |TrimStart(s)|, TrimEnd(TrimStart(s)))
  {
    TrimSlice(s);
    TrimEndOfSlice(s[|s| - |TrimStart(s)|..]);
    TrimTail(s, |s| - |TrimStart(s)|);
  }

  lemma TrimSlice(s: string)
    ensures var i := |s| - |TrimStart(s)|;
            TrimEnd(TrimStart(s)) == s[i..i + |TrimEnd(TrimStart(s))|]
  {
    var a := TrimStart(s);
    PrefixOfSuffix(s, |s| - |a|, TrimEnd(a));
  }

  lemma PrefixOfSuffix(s: string, i: nat, r: string)
    requires i <= |s| && |r| <= |s| - i && r == s[i..][..|r|]
    ensures r == s[i..i + |r|]
  {
  }

  lemma TrimEndOfSlice(a: string)
    ensures forall k :: |TrimEnd(a)| <= k < |a| ==> IsSpace(a[k])
  {
  }

  /** What `TrimEnd` cuts from the suffix `s[i..]` is the whitespace tail of `s`. */
  lemma TrimTail(s: string, i: nat)
    requires i <= |s|
    requires forall k :: |TrimEnd(s[i..])| <= k < |s| - i ==> IsSpace(s[i..][k])
    ensures forall k :: i + |TrimEnd(s[i..])| <= k < |s| ==> IsSpace(s[k])
  {
    var a := s[i..];
    forall k | i + |TrimEnd(a)| <= k < |s| ensures IsSpace(s[k]) {
      assert s[k] == a[k - i];
    }
  }

  lemma {:induction false} TrimStartSkips(a: string, t: string)
    requires forall k :: 0 <= k < |a| ==> IsSpace(a[k])
    requires |t| == 0 || !IsSpace(t[0])
    ensures TrimStart(a + t) == t
  {
    if |a| == 0 {
      assert a + t == t;
    } else {
      assert (a + t)[1..] == a[1..] + t;
      TrimStartSkips(a[1..], t);
    }
  }

  lemma {:induction false} TrimEndSkips(t: string, b: string)
    requires forall k :: 0 <= k < |b| ==> IsSpace(b[k])
    requires |t| == 0 || !IsSpace(t[|t| - 1])
    ensures TrimEnd(t + b) == t
  {
    if |b| == 0 {
      assert t + b == t;
    } else {
      assert (t + b)[..|t + b| - 1] == t + b[..|b| - 1];
      TrimEndSkips(t, b[..|b| - 1]);
    }
  }

  /** Trimming recovers any text from whitespace padding on either side:
      `Trim` removes exactly the padding, no more and no less. */
  lemma TrimPadded(a: string, x: string, b: string)
    requires forall k :: 0 <= k < |a| ==> IsSpace(a[k])
    requires forall k :: 0 <= k < |b| ==> IsSpace(b[k])
    requires |x| == 0 || (!IsSpace(x[0]) && !IsSpace(x[|x| - 1]))
    ensures Trim(a + x + b) == x
  {
    if |x| == 0 {
      assert a + x + b == (a + b) + x;
      TrimStartSkips(a + b, x);
      assert TrimEnd(x) == x;
    } else {
      assert a + x + b == a + (x + b);
      TrimStartSkips(a, x + b);
      TrimEndSkips(x, b);
    }
  }

  /** Trimming twice is trimming once. */
  lemma TrimIdempotent(s: string)
    ensures Trim(Trim(s)) == Trim(s)
  {
    var r := Trim(s);
    assert r == [] + r + [];
    TrimPadded([], r, []);
  }

  /** The value is empty once trimmed, so the not-empty check fails. */
  predicate Blank(s: string)
  {
    Trim(s) == []
  }

  /** What a route answers. `Invalid` is the 400 reply listing the request
      fields whose validators failed, in the order the validators are declared;
      `Refused` is a status with a `{message}` body. */
  datatype Reply<+T> =
    | Ok(status: int, body: T)
    | Invalid(fields: seq<string>)
    | Refused(status: int, message: string)
}

=== FILE: dashboard.dfy ===
/** The dashboard's client-side arithmetic: the income, expense and balance
    figures summed over the transaction list, and the expense-by-category
    chart built from the `byCategory` statistics. */
module Dashboard {
  import opened Common
  import opened Store
  import opened Sorting
  import Ledger
  import Stats

  /** A transaction as the dashboard holds it: the wire spelling of its type
      and its amount after `parseFloat`, `None` standing for `NaN`. */
  datatype ClientTxn = ClientTxn(typeName: string, amount: Option<int>)

  /** A transaction's parsed amount, zero when it is not a number. */
  function AmountOrZero(t: ClientTxn): int
  {
    match t.amount
    case None => 0
    case Some(a) => a
  }

  /** The sum, over the transactions whose type is spelled `name`, of their
      amounts, an amount that is not a number counting as zero. */
  function TotalOf(ts: seq<ClientTxn>, name: string): int
  {
    if |ts| == 0 then 0
    else (if ts[0].typeName == name then AmountOrZero(ts[0]) else 0) + TotalOf(ts[1..], name)
  }

  function TotalIncome(ts: seq<ClientTxn>): int
  {
    TotalOf(ts, "income")
  }

  function TotalExpenses(ts: seq<ClientTxn>): int
  {
    TotalOf(ts, "expense")
  }

  /** The figure shown under "Balance". */
  function Balance(ts: seq<ClientTxn>): int
  {
    TotalIncome(ts) - TotalExpenses(ts)
  }

  /** What each transaction adds to the balance: its amount when it is
      income, minus its amount when it is an expense, and nothing when its
      type is neither or its amount is not a number. */
  function Signed(t: ClientTxn): int
  {
    if t.typeName == "income" then AmountOrZero(t)
    else if t.typeName == "expense" then -AmountOrZero(t)
    else 0
  }

  function SignedSum(ts: seq<ClientTxn>): int
  {
    if |ts| == 0 then 0 else Signed(ts[0]) + SignedSum(ts[1..])
  }

  /** The balance is the signed sum of the transactions. */
  lemma {:induction false} BalanceIsSignedSum(ts: seq<ClientTxn>)
    ensures Balance(ts) == SignedSum(ts)
  {
    if |ts| > 0 {
      BalanceIsSignedSum(ts[1..]);
    }
  }

  /** Totals add up over a split of the list. */
  lemma {:induction false} TotalOfAppend(a: seq<ClientTxn>, b: seq<ClientTxn>, name: string)
    ensures TotalOf(a + b, name) == TotalOf(a, name) + TotalOf(b, name)
  {
    if |a| == 0 {
      assert a + b == b;
    } else {
      assert (a + b)[1..] == a[1..] + b;
      TotalOfAppend(a[1..], b, name);
    }
  }

  /** A transaction of another type, or with an amount that is not a number,
      leaves a total as it is. */
  lemma OtherTypesIgnored(ts: seq<ClientTxn>, t: ClientTxn, name: string)
    requires t.typeName != name || t.amount.None?
    ensures TotalOf(ts + [t], name) == TotalOf(ts, name)
  {
    TotalOfAppend(ts, [t], name);
  }

  /** The transaction list as the dashboard receives it from GET /transactions. */
  function FromServer(rows: seq<Ledger.TxnRow>): (r: seq<ClientTxn>)
    ensures |r| == |rows|
    ensures forall i :: 0 <= i < |rows| ==>
              r[i] == ClientTxn(KindName(rows[i].txn.kind), Some(rows[i].txn.amount))
    ensures forall i :: 0 <= i < |rows| ==> ParseKind(r[i].typeName) == Some(rows[i].txn.kind)
  {
    seq(|rows|, i requires 0 <= i < |rows| =>
          ClientTxn(KindName(rows[i].txn.kind), Some(rows[i].txn.amount)))
  }

  /** The sum of the amounts of the transactions of `ts` with polarity `k`. */
  function KindTotal(ts: seq<Txn>, k: Kind): int
  {
    if |ts| == 0 then 0 else (if ts[0].kind == k then ts[0].amount else 0) + KindTotal(ts[1..], k)
  }

  function RowsTotal(rows: seq<Ledger.TxnRow>, k: Kind): int
  {
    if |rows| == 0 then 0
    else Share(rows[0], k) + RowsTotal(rows[1..], k)
  }

  lemma {:induction false} RowsTotalAppend(a: seq<Ledger.TxnRow>, b: seq<Ledger.TxnRow>, k: Kind)
    ensures RowsTotal(a + b, k) == RowsTotal(a, k) + RowsTotal(b, k)
  {
    if |a| == 0 {
      assert a + b == b;
    } else {
      assert (a + b)[1..] == a[1..] + b;
      RowsTotalAppend(a[1..], b, k);
    }
  }

  /** A row's share of a total. */
  function Share(row: Ledger.TxnRow, k: Kind): int
  {
    if row.txn.kind == k then row.txn.amount else 0
  }

  lemma RowsTotalRemove(b: seq<Ledger.TxnRow>, j: nat, k: Kind)
    requires j < |b|
    ensures RowsTotal(b, k) == Share(b[j], k) + RowsTotal(b[..j] + b[j + 1..], k)
  {
    assert b == b[..j] + [b[j]] + b[j + 1..];
    RowsTotalAppend(b[..j] + [b[j]], b[j + 1..], k);
    RowsTotalAppend(b[..j], [b[j]], k);
    RowsTotalAppend(b[..j], b[j + 1..], k);
  }

  /** Reordering the rows does not change their total. */
  lemma {:induction false} RowsTotalPermutation(a: seq<Ledger.TxnRow>, b: seq<Ledger.TxnRow>, k: Kind)
    requires multiset(a) == multiset(b)
    ensures RowsTotal(a, k) == RowsTotal(b, k)
    decreases |a|
  {
    if |a| == 0 {
      PermutationEmpty(a, b);
    } else {
      var j := PermutationPick(a, b);
      RowsTotalPermutation(a[1..], b[..j] + b[j + 1..], k);
      RowsTotalRemove(b, j, k);
    }
  }

  lemma {:induction false} ClientTotal(rows: seq<Ledger.TxnRow>, k: Kind)
    ensures TotalOf(FromServer(rows), KindName(k)) == RowsTotal(rows, k)
  {
    if |rows| > 0 {
      ClientTotal(rows[1..], k);
      assert FromServer(rows)[1..] == FromServer(rows[1..]);
      assert KindName(rows[0].txn.kind) == KindName(k) <==> rows[0].txn.kind == k by {
        assert ParseKind(KindName(rows[0].txn.kind)) == Some(rows[0].txn.kind);
      }
    }
  }

  lemma {:induction false} JoinedTotal(ts: seq<Txn>, cs: seq<Category>, k: Kind)
    requires CategoryIdsUnique(cs)
    ensures RowsTotal(Ledger.JoinAll(ts, cs), k) == KindTotal(ts, k)
  {
    if |ts| > 0 {
      JoinedTotal(ts[1..], cs, k);
      assert Ledger.JoinAll(ts, cs)[1..] == Ledger.JoinAll(ts[1..], cs);
    }
  }

  /** The dashboard's income and expense figures are the sums of the caller's
      income and expense amounts in the table, and its balance their
      difference, whatever order the list arrives in. */
  lemma DashboardMatchesLedger(db: Db, caller: nat)
    requires Valid(db)
    ensures var ts := FromServer(Ledger.ListTxns(db, caller));
            var mine := TxnsOf(db.transactions, caller);
            && TotalIncome(ts) == KindTotal(mine, Income)
            && TotalExpenses(ts) == KindTotal(mine, Expense)
            && Balance(ts) == KindTotal(mine, Income) - KindTotal(mine, Expense)
  {
    var mine := TxnsOf(db.transactions, caller);
    var joined := Ledger.JoinAll(mine, db.categories);
    var rows := Ledger.ListTxns(db, caller);
    assert multiset(rows) == multiset(joined);
    forall k | true ensures TotalOf(FromServer(rows), KindName(k)) == KindTotal(mine, k) {
      ClientTotal(rows, k);
      RowsTotalPermutation(rows, joined, k);
      JoinedTotal(mine, db.categories, k);
    }
    assert KindName(Income) == "income" && KindName(Expense) == "expense";
  }

  // The expense chart.

  /** One entry of the chart: a category name and its merged total. */
  datatype Slice = Slice(name: string, value: int)

  /** The rows the chart starts from: the `byCategory` rows of expense
      categories, in their order. */
  function Expenses(rows: seq<Stats.CategoryRow>): (r: seq<Stats.CategoryRow>)
    ensures forall x :: x in r <==> x in rows && x.kind == Expense
  {
    if |rows| == 0 then []
    else (if rows[0].kind == Expense then [rows[0]] else []) + Expenses(rows[1..])
  }

  /** Some row carries the name. */
  predicate Mentions(rs: seq<Stats.CategoryRow>, name: string)
  {
    exists k :: 0 <= k < |rs| && rs[k].name == name
  }

  /** The totals of the rows named `name`, summed. */
  function NameTotal(rs: seq<Stats.CategoryRow>, name: string): int
  {
    if |rs| == 0 then 0
    else NameTotal(rs[..|rs| - 1], name) + (if rs[|rs| - 1].name == name then rs[|rs| - 1].total else 0)
  }

  /** The index of the first row carrying the name. */
  function FirstPos(rs: seq<Stats.CategoryRow>, name: string): (k: nat)
    requires Mentions(rs, name)
    ensures k < |rs| && rs[k].name == name
    ensures forall j :: 0 <= j < k ==> rs[j].name != name
  {
    if rs[0].name == name then 0
    else
      assert Mentions(rs[1..], name) by {
        var k :| 0 <= k < |rs| && rs[k].name == name;
        assert rs[1..][k - 1].name == name;
      }
      1 + FirstPos(rs[1..], name)
  }

  /** Some entry carries the name. */
  predicate Charted(e: seq<Slice>, name: string)
  {
    exists i :: 0 <= i < |e| && e[i].name == name
  }

  /** Each entry carries a name of `rs` and the total of the rows with that name. */
  predicate TalliesValues(e: seq<Slice>, rs: seq<Stats.CategoryRow>)
  {
    forall s :: s in e ==> Mentions(rs, s.name) && s.value == NameTotal(rs, s.name)
  }

  /** The entries follow the order in which their names first appear in `rs`. */
  predicate TalliesOrder(e: seq<Slice>, rs: seq<Stats.CategoryRow>)
  {
    forall i, j :: 0 <= i < j < |e| && Mentions(rs, e[i].name) && Mentions(rs, e[j].name) ==>
      FirstPos(rs, e[i].name) < FirstPos(rs, e[j].name)
  }

  /** Ordered entries carrying names of `rs` have distinct names. */
  lemma TalliesDistinct(e: seq<Slice>, rs: seq<Stats.CategoryRow>)
    requires TalliesValues(e, rs) && TalliesOrder(e, rs)
    ensures forall i, j :: 0 <= i < j < |e| ==> e[i].name != e[j].name
  {
    forall i, j | 0 <= i < j < |e| ensures e[i].name != e[j].name {
      assert e[i] in e && e[j] in e;
    }
  }

  /** Adds `value` to the running total of `name` in a JavaScript `Map`, held
      as its entry list in insertion order (a missing key starts from zero):
      an existing key keeps its place, a new key goes last. */
  function Put(e: seq<Slice>, name: string, value: int): seq<Slice>
  {
    if |e| == 0 then [Slice(name, value)]
    else if e[0].name == name then [Slice(name, e[0].value + value)] + e[1..]
    else [e[0]] + Put(e[1..], name, value)
  }

  /** A new key is appended. */
  lemma {:induction false} PutNew(e: seq<Slice>, name: string, value: int)
    requires !Charted(e, name)
    ensures Put(e, name, value) == e + [Slice(name, value)]
  {
    if |e| > 0 {
      assert e[0].name != name;
      assert !Charted(e[1..], name);
      PutNew(e[1..], name, value);
    }
  }

  /** An existing key, held by one entry only, gets the added value in place
      and every other entry stays. */
  lemma {:induction false} PutExisting(e: seq<Slice>, name: string, value: int, p: nat)
    requires p < |e| && e[p].name == name
    requires forall i, j :: 0 <= i < j < |e| ==> e[i].name != e[j].name
    ensures |Put(e, name, value)| == |e|
    ensures Put(e, name, value)[p] == Slice(name, e[p].value + value)
    ensures forall i :: 0 <= i < |e| && i != p ==> Put(e, name, value)[i] == e[i]
  {
    if p > 0 {
      assert e[0].name != name;
      PutExisting(e[1..], name, value, p - 1);
    } else {
      assert forall i :: 0 < i < |e| ==> e[i].name != name;
    }
  }

  lemma MentionsExtend(rs: seq<Stats.CategoryRow>, x: Stats.CategoryRow, name: string)
    ensures Mentions(rs + [x], name) <==> Mentions(rs, name) || x.name == name
  {
    var rs' := rs + [x];
    if Mentions(rs, name) {
      var k :| 0 <= k < |rs| && rs[k].name == name;
      assert rs'[k].name == name;
    }
    if Mentions(rs', name) && x.name != name {
      var k :| 0 <= k < |rs'| && rs'[k].name == name;
      assert rs[k].name == name;
    }
    assert rs'[|rs|] == x;
  }

  lemma FirstPosExtend(rs: seq<Stats.CategoryRow>, x: Stats.CategoryRow, name: string)
    requires Mentions(rs + [x], name)
    ensures Mentions(rs, name) ==> FirstPos(rs + [x], name) == FirstPos(rs, name)
    ensures !Mentions(rs, name) ==> FirstPos(rs + [x], name) == |rs|
  {
    var rs' := rs + [x];
    var k' := FirstPos(rs', name);
    if Mentions(rs, name) {
      var k := FirstPos(rs, name);
      assert rs'[k].name == name;
    }
  }

  lemma NameTotalExtend(rs: seq<Stats.CategoryRow>, x: Stats.CategoryRow, name: string)
    ensures NameTotal(rs + [x], name) == NameTotal(rs, name) + (if x.name == name then x.total else 0)
  {
    assert (rs + [x])[..|rs|] == rs;
  }

  lemma {:induction false} NameTotalUnmentioned(rs: seq<Stats.CategoryRow>, name: string)
    requires !Mentions(rs, name)
    ensures NameTotal(rs, name) == 0
  {
    if |rs| > 0 {
      var prev := rs[..|rs| - 1];
      assert rs == prev + [rs[|rs| - 1]];
      MentionsExtend(prev, rs[|rs| - 1], name);
      NameTotalUnmentioned(prev, name);
    }
  }

  /** Adding a row whose name is already charted: the values still tally. */
  lemma MergeExistingValues(prev: seq<Stats.CategoryRow>, x: Stats.CategoryRow, e: seq<Slice>, p: nat)
    requires TalliesValues(e, prev)
    requires p < |e| && e[p].name == x.name
    requires forall i, j :: 0 <= i < j < |e| ==> e[i].name != e[j].name
    ensures TalliesValues(Put(e, x.name, x.total), prev + [x])
  {
    var rs := prev + [x];
    var e' := Put(e, x.name, x.total);
    PutExisting(e, x.name, x.total, p);
    forall s | s in e' ensures Mentions(rs, s.name) && s.value == NameTotal(rs, s.name) {
      var i :| 0 <= i < |e'| && e'[i] == s;
      assert e[i] in e;
      MentionsExtend(prev, x, s.name);
      NameTotalExtend(prev, x, s.name);
    }
  }

  /** Adding a row whose name is already charted: the order is kept. */
  lemma MergeExistingOrder(prev: seq<Stats.CategoryRow>, x: Stats.CategoryRow, e: seq<Slice>, p: nat)
    requires TalliesValues(e, prev) && TalliesOrder(e, prev)
    requires p < |e| && e[p].name == x.name
    requires forall i, j :: 0 <= i < j < |e| ==> e[i].name != e[j].name
    ensures TalliesOrder(Put(e, x.name, x.total), prev + [x])
  {
    var rs := prev + [x];
    var e' := Put(e, x.name, x.total);
    PutExisting(e, x.name, x.total, p);
    forall i, j | 0 <= i < j < |e'| && Mentions(rs, e'[i].name) && Mentions(rs, e'[j].name)
      ensures FirstPos(rs, e'[i].name) < FirstPos(rs, e'[j].name)
    {
      assert e'[i].name == e[i].name && e'[j].name == e[j].name;
      assert e[i] in e && e[j] in e;
      FirstPosExtend(prev, x, e[i].name);
      FirstPosExtend(prev, x, e[j].name);
    }
  }

  /** Adding a row whose name is already charted: the same names are charted. */
  lemma MergeExistingNames(e: seq<Slice>, name: string, value: int, p: nat)
    requires p < |e| && e[p].name == name
    requires forall i, j :: 0 <= i < j < |e| ==> e[i].name != e[j].name
    ensures forall n :: Charted(Put(e, name, value), n) <==> Charted(e, n)
  {
    var e' := Put(e, name, value);
    PutExisting(e, name, value, p);
    assert forall i :: 0 <= i < |e| ==> e'[i].name == e[i].name;
    forall n ensures Charted(e', n) <==> Charted(e, n) {
      if Charted(e, n) {
        var i :| 0 <= i < |e| && e[i].name == n;
        assert e'[i].name == n;
      }
    }
  }

  /** Adding a row with a name not charted yet: the values still tally. */
  lemma MergeNewValues(prev: seq<Stats.CategoryRow>, x: Stats.CategoryRow, e: seq<Slice>)
    requires TalliesValues(e, prev)
    requires forall name :: Charted(e, name) <==> Mentions(prev, name)
    requires !Charted(e, x.name)
    ensures TalliesValues(e + [Slice(x.name, x.total)], prev + [x])
  {
    var rs := prev + [x];
    var added := Slice(x.name, x.total);
    var e' := e + [added];
    forall s | s in e' ensures Mentions(rs, s.name) && s.value == NameTotal(rs, s.name) {
      MentionsExtend(prev, x, s.name);
      NameTotalExtend(prev, x, s.name);
      if s == added {
        NameTotalUnmentioned(prev, x.name);
      } else {
        assert s in e;
        var i :| 0 <= i < |e| && e[i] == s;
        assert Charted(e, s.name);
      }
    }
  }

  /** Adding a row with a name not charted yet: the new name goes last, after
      every name that appeared earlier. */
  lemma MergeNewOrder(prev: seq<Stats.CategoryRow>, x: Stats.CategoryRow, e: seq<Slice>)
    requires TalliesValues(e, prev) && TalliesOrder(e, prev)
    requires !Mentions(prev, x.name)
    ensures TalliesOrder(e + [Slice(x.name, x.total)], prev + [x])
  {
    var rs := prev + [x];
    var e' := e + [Slice(x.name, x.total)];
    forall i, j | 0 <= i < j < |e'| && Mentions(rs, e'[i].name) && Mentions(rs, e'[j].name)
      ensures FirstPos(rs, e'[i].name) < FirstPos(rs, e'[j].name)
    {
      assert e'[i] == e[i] && e[i] in e;
      FirstPosExtend(prev, x, e[i].name);
      if j < |e| {
        assert e'[j] == e[j] && e[j] in e;
        FirstPosExtend(prev, x, e[j].name);
      } else {
        FirstPosExtend(prev, x, x.name);
      }
    }
  }

  lemma MergeNewNames(e: seq<Slice>, name: string, value: int)
    ensures forall n :: Charted(e + [Slice(name, value)], n) <==> Charted(e, n) || n == name
  {
    var e' := e + [Slice(name, value)];
    forall n ensures Charted(e', n) <==> Charted(e, n) || n == name {
      if Charted(e, n) {
        var i :| 0 <= i < |e| && e[i].name == n;
        assert e'[i].name == n;
      }
      if n == name {
        assert e'[|e|].name == n;
      }
      if Charted(e', n) && n != name {
        var i :| 0 <= i < |e'| && e'[i].name == n;
        assert e[i].name == n;
      }
    }
  }

  /** The entries of the `Map` after the `forEach` over `rs`. */
  function Merge(rs: seq<Stats.CategoryRow>): (e: seq<Slice>)
    ensures TalliesValues(e, rs) && TalliesOrder(e, rs)
    ensures forall name :: Charted(e, name) <==> Mentions(rs, name)
  {
    if |rs| == 0 then []
    else
      var prev := rs[..|rs| - 1];
      var x := rs[|rs| - 1];
      assert prev + [x] == rs;
      var e := Merge(prev);
      MergeStep(prev, x, e);
      Put(e, x.name, x.total)
  }

  lemma MergeStep(prev: seq<Stats.CategoryRow>, x: Stats.CategoryRow, e: seq<Slice>)
    requires TalliesValues(e, prev) && TalliesOrder(e, prev)
    requires forall name :: Charted(e, name) <==> Mentions(prev, name)
    ensures TalliesValues(Put(e, x.name, x.total), prev + [x])
    ensures TalliesOrder(Put(e, x.name, x.total), prev + [x])
    ensures forall name :: Charted(Put(e, x.name, x.total), name) <==> Mentions(prev + [x], name)
  {
    forall name ensures Mentions(prev + [x], name) <==> Mentions(prev, name) || x.name == name {
      MentionsExtend(prev, x, name);
    }
    if Charted(e, x.name) {
      var p :| 0 <= p < |e| && e[p].name == x.name;
      TalliesDistinct(e, prev);
      MergeExistingValues(prev, x, e, p);
      MergeExistingOrder(prev, x, e, p);
      MergeExistingNames(e, x.name, x.total, p);
    } else {
      PutNew(e, x.name, x.total);
      MergeNewValues(prev, x, e);
      MergeNewOrder(prev, x, e);
      MergeNewNames(e, x.name, x.total);
    }
  }

  /** Keeps the entries whose total is positive, in their order. */
  function Positive(e: seq<Slice>): (r: seq<Slice>)
    ensures forall s :: s in r <==> s in e && s.value > 0
  {
    if |e| == 0 then []
    else (if e[0].value > 0 then [e[0]] else []) + Positive(e[1..])
  }

  /** The order survives dropping the first entry. */
  lemma TalliesOrderTail(e: seq<Slice>, rs: seq<Stats.CategoryRow>)
    requires |e| > 0 && TalliesOrder(e, rs)
    ensures TalliesOrder(e[1..], rs)
  {
    forall i, j | 0 <= i < j < |e[1..]| && Mentions(rs, e[1..][i].name) && Mentions(rs, e[1..][j].name)
      ensures FirstPos(rs, e[1..][i].name) < FirstPos(rs, e[1..][j].name)
    {
      assert e[1..][i] == e[i + 1] && e[1..][j] == e[j + 1];
    }
  }

  /** An entry placed before an ordered list it precedes keeps the order. */
  lemma TalliesOrderCons(x: Slice, rest: seq<Slice>, rs: seq<Stats.CategoryRow>)
    requires TalliesOrder(rest, rs)
    requires forall s :: s in rest && Mentions(rs, x.name) && Mentions(rs, s.name) ==>
               FirstPos(rs, x.name) < FirstPos(rs, s.name)
    ensures TalliesOrder([x] + rest, rs)
  {
    var r := [x] + rest;
    forall i, j | 0 <= i < j < |r| && Mentions(rs, r[i].name) && Mentions(rs, r[j].name)
      ensures FirstPos(rs, r[i].name) < FirstPos(rs, r[j].name)
    {
      if i == 0 {
        assert r[j] in rest;
      } else {
        assert r[i] == rest[i - 1] && r[j] == rest[j - 1];
      }
    }
  }

  /** Dropping entries keeps the order of the rest. */
  lemma {:induction false} PositiveKeepsOrder(e: seq<Slice>, rs: seq<Stats.CategoryRow>)
    requires TalliesOrder(e, rs)
    ensures TalliesOrder(Positive(e), rs)
  {
    if |e| > 0 {
      TalliesOrderTail(e, rs);
      PositiveKeepsOrder(e[1..], rs);
      var rest := Positive(e[1..]);
      if e[0].value > 0 {
        forall s | s in rest && Mentions(rs, e[0].name) && Mentions(rs, s.name)
          ensures FirstPos(rs, e[0].name) < FirstPos(rs, s.name)
        {
          var k :| 0 <= k < |e[1..]| && e[1..][k] == s;
          assert e[k + 1] == s;
        }
        TalliesOrderCons(e[0], rest, rs);
      }
    }
  }

  /** The expense chart of the dashboard: one slice per expense category name
      whose merged total is positive, carrying that total, in the order the
      names first appear among the expense rows. */
  function ChartData(rows: seq<Stats.CategoryRow>): (chart: seq<Slice>)
    ensures forall s :: s in chart ==>
              && Mentions(Expenses(rows), s.name)
              && s.value == NameTotal(Expenses(rows), s.name)
              && s.value > 0
    ensures forall name :: Mentions(Expenses(rows), name) && NameTotal(Expenses(rows), name) > 0 ==>
              Charted(chart, name)
    ensures forall i, j :: 0 <= i < j < |chart| ==> chart[i].name != chart[j].name
    ensures TalliesOrder(chart, Expenses(rows))
  {
    var ex := Expenses(rows);
    var merged := Merge(ex);
    var chart := Positive(merged);
    PositiveKeepsOrder(merged, ex);
    assert TalliesValues(chart, ex);
    TalliesDistinct(chart, ex);
    assert forall name :: Mentions(ex, name) && NameTotal(ex, name) > 0 ==> Charted(chart, name) by {
      forall name | Mentions(ex, name) && NameTotal(ex, name) > 0 ensures Charted(chart, name) {
        var i :| 0 <= i < |merged| && merged[i].name == name;
        assert merged[i] in merged;
        var j :| 0 <= j < |chart| && chart[j] == merged[i];
      }
    }
    chart
  }
}

=== FILE: ledger.dfy ===
/** The transaction routes: list, create, update and delete, each confined to
    the caller's own rows by `user_id`. */
module Ledger {
  import opened Common
  import opened Store
  import opened Sorting

  /** A transaction joined to its category (a LEFT JOIN on `category_id`):
      the category's name and polarity, or both absent when no category has
      that id. */
  datatype TxnRow = TxnRow(txn: Txn, categoryName: Option<string>, categoryKind: Option<Kind>)

  /** The request body of create and update. The validators `isFloat`,
      `isInt` and `isISO8601` are represented by their parse: `None` is a value
      the validator rejects. */
  datatype TxnInput = TxnInput(amount: Option<int>, description: string,
                               categoryId: Option<int>, date: Option<Date>, typeName: string)

  const NotFound := "Transaction not found"
  const Deleted := "Transaction deleted"

  function Join(t: Txn, cs: seq<Category>): (row: TxnRow)
    requires CategoryIdsUnique(cs)
    ensures row.txn == t
    ensures row.categoryName.None? <==> forall c :: c in cs ==> c.id != t.categoryId
    ensures row.categoryKind.None? <==> row.categoryName.None?
    ensures forall c :: c in cs && c.id == t.categoryId ==>
              row.categoryName == Some(c.name) && row.categoryKind == Some(c.kind)
  {
    match FindCategory(cs, t.categoryId)
    case None => TxnRow(t, None, None)
    case Some(c) =>
      assert forall d :: d in cs && d.id == t.categoryId ==> d == c by {
        forall d | d in cs && d.id == t.categoryId ensures d == c {
          FindCategoryUnique(cs, d);
        }
      }
      TxnRow(t, Some(c.name), Some(c.kind))
  }

  function JoinAll(ts: seq<Txn>, cs: seq<Category>): (rows: seq<TxnRow>)
    requires CategoryIdsUnique(cs)
    ensures |rows| == |ts|
    ensures forall i :: 0 <= i < |ts| ==> rows[i] == Join(ts[i], cs)
    ensures forall r :: r in rows <==> r.txn in ts && r == Join(r.txn, cs)
  {
    var rows := seq(|ts|, i requires 0 <= i < |ts| => Join(ts[i], cs));
    assert forall r :: r in rows <==> r.txn in ts && r == Join(r.txn, cs) by {
      forall r ensures r in rows <==> r.txn in ts && r == Join(r.txn, cs) {
        if r.txn in ts && r == Join(r.txn, cs) {
          var k :| 0 <= k < |ts| && ts[k] == r.txn;
          assert rows[k] == r;
        }
      }
    }
    rows
  }

  /** The list order: later dates first. */
  predicate LaterFirst(a: TxnRow, b: TxnRow)
  {
    DateLe(b.txn.date, a.txn.date)
  }

  lemma LaterFirstTotal()
    ensures Total(LaterFirst)
  {
  }

  /** GET /: the caller's transactions, each joined to its category, newest first. */
  function ListTxns(db: Db, caller: nat): (rows: seq<TxnRow>)
    requires Valid(db)
    ensures multiset(rows) == multiset(JoinAll(TxnsOf(db.transactions, caller), db.categories))
    ensures forall i :: 0 <= i < |rows| ==>
              rows[i].txn in db.transactions && rows[i].txn.userId == caller
              && rows[i] == Join(rows[i].txn, db.categories)
    ensures forall t :: t in db.transactions && t.userId == caller ==>
              exists i :: 0 <= i < |rows| && rows[i].txn == t
    ensures forall i :: 0 < i < |rows| ==> DateLe(rows[i].txn.date, rows[i - 1].txn.date)
  {
    var mine := TxnsOf(db.transactions, caller);
    var joined := JoinAll(mine, db.categories);
    var rows := SortBy(joined, LaterFirst);
    LaterFirstTotal();
    SameElements(rows, joined);
    assert forall i :: 0 <= i < |rows| ==> rows[i] in rows;
    rows
  }

  /** The validators of create and update, in declaration order: each field
      is reported exactly when its own validator fails. */
  function TxnErrors(inp: TxnInput): (errs: seq<string>)
    ensures errs == [] <==>
              inp.amount.Some? && !Blank(inp.description) && inp.categoryId.Some?
              && inp.date.Some? && ParseKind(inp.typeName).Some?
  {
    (if inp.amount.None? then ["amount"] else [])
    + (if Blank(inp.description) then ["description"] else [])
    + (if inp.categoryId.None? then ["category_id"] else [])
    + (if inp.date.None? then ["date"] else [])
    + (if ParseKind(inp.typeName).None? then ["type"] else [])
  }

  /** Each field is reported exactly when its own validator fails. */
  lemma TxnErrorFields(inp: TxnInput)
    ensures forall f :: f in TxnErrors(inp) <==>
              || (f == "amount" && inp.amount.None?)
              || (f == "description" && Blank(inp.description))
              || (f == "category_id" && inp.categoryId.None?)
              || (f == "date" && inp.date.None?)
              || (f == "type" && ParseKind(inp.typeName).None?)
  {
    var a := if inp.amount.None? then ["amount"] else [];
    var b := if Blank(inp.description) then ["description"] else [];
    var c := if inp.categoryId.None? then ["category_id"] else [];
    var d := if inp.date.None? then ["date"] else [];
    var e := if ParseKind(inp.typeName).None? then ["type"] else [];
    assert TxnErrors(inp) == a + b + c + d + e;
    forall f ensures f in a + b + c + d + e <==> f in a || f in b || f in c || f in d || f in e {
      assert f in a <==> f == "amount" && inp.amount.None?;
      assert f in b <==> f == "description" && Blank(inp.description);
      assert f in c <==> f == "category_id" && inp.categoryId.None?;
      assert f in d <==> f == "date" && inp.date.None?;
      assert f in e <==> f == "type" && ParseKind(inp.typeName).None?;
    }
  }

  /** The row after the update overwrites its amount, description, category
      id, date and type; the description is stored trimmed, as the sanitizer
      left it. */
  function Edited(t: Txn, inp: TxnInput): (r: Txn)
    requires TxnErrors(inp) == []
    ensures r.id == t.id && r.userId == t.userId
    ensures r.amount == inp.amount.value && r.description == Trim(inp.description)
    ensures Some(r.categoryId) == inp.categoryId && Some(r.date) == inp.date
    ensures Some(r.kind) == ParseKind(inp.typeName)
  {
    t.(amount := inp.amount.value, description := Trim(inp.description),
       categoryId := inp.categoryId.value, date := inp.date.value,
       kind := ParseKind(inp.typeName).value)
  }

  /** POST /: appends one row owned by the caller under the next id and
      replies 201 with it, joined. The category id is not checked against the
      categories table, their owners or the transaction's polarity. */
  function CreateTxn(db: Db, caller: nat, inp: TxnInput): (out: Outcome<TxnRow>)
    requires Valid(db)
    ensures Valid(out.db)
    ensures out.db.users == db.users && out.db.categories == db.categories
    ensures TxnErrors(inp) != [] ==> out == Outcome(Invalid(TxnErrors(inp)), db)
    ensures TxnErrors(inp) == [] ==>
              && |out.db.transactions| == |db.transactions| + 1
              && out.db.transactions[..|db.transactions|] == db.transactions
              && var t := out.db.transactions[|db.transactions|];
                 && t.userId == caller
                 && (forall u :: u in db.transactions ==> u.id != t.id)
                 && t.amount == inp.amount.value && t.description == Trim(inp.description)
                 && Some(t.categoryId) == inp.categoryId && Some(t.date) == inp.date
                 && Some(t.kind) == ParseKind(inp.typeName)
                 && out.reply == Ok(201, Join(t, db.categories))
  {
    var errs := TxnErrors(inp);
    if errs != [] then Outcome(Invalid(errs), db)
    else
      var t := Txn(db.nextTxnId, caller, inp.amount.value, Trim(inp.description),
                   inp.categoryId.value, inp.date.value, ParseKind(inp.typeName).value);
      var ts := db.transactions + [t];
      assert ts[..|db.transactions|] == db.transactions;
      AddTxnValid(db, t);
      Outcome(Ok(201, Join(t, db.categories)),
              db.(transactions := ts, nextTxnId := db.nextTxnId + 1))
  }

  /** A row under the next id keeps the table valid. */
  lemma AddTxnValid(db: Db, t: Txn)
    requires Valid(db) && t.id == db.nextTxnId
    ensures Valid(db.(transactions := db.transactions + [t], nextTxnId := db.nextTxnId + 1))
  {
    var ts := db.transactions + [t];
    forall i, j | 0 <= i < j < |ts| ensures ts[i].id != ts[j].id {
      if j == |db.transactions| {
        assert ts[i].id < db.nextTxnId;
      }
    }
  }

  /** The row has that id and belongs to the caller. */
  predicate Matches(t: Txn, caller: nat, id: int)
  {
    t.id == id && t.userId == caller
  }

  /** The number of rows an update or delete by id and owner affects. */
  function MatchCount(ts: seq<Txn>, caller: nat, id: int): (n: nat)
    ensures n <= |ts|
    ensures n == 0 <==> forall t :: t in ts ==> !Matches(t, caller, id)
  {
    if |ts| == 0 then 0
    else (if Matches(ts[0], caller, id) then 1 else 0) + MatchCount(ts[1..], caller, id)
  }

  /** The caller owns a row with that id. */
  predicate OwnsTxn(ts: seq<Txn>, caller: nat, id: int)
  {
    exists t :: t in ts && Matches(t, caller, id)
  }

  function EditAll(ts: seq<Txn>, caller: nat, id: int, inp: TxnInput): (r: seq<Txn>)
    requires TxnErrors(inp) == []
    ensures |r| == |ts|
    ensures forall i :: 0 <= i < |ts| ==>
              r[i] == if Matches(ts[i], caller, id) then Edited(ts[i], inp) else ts[i]
    ensures forall i :: 0 <= i < |ts| ==> r[i].id == ts[i].id && r[i].userId == ts[i].userId
    ensures forall t :: t in r && !Matches(t, caller, id) <==> t in ts && !Matches(t, caller, id)
  {
    seq(|ts|, i requires 0 <= i < |ts| =>
          if Matches(ts[i], caller, id) then Edited(ts[i], inp) else ts[i])
  }

  /** Editing leaves every id where it was. */
  lemma EditAllValid(ts: seq<Txn>, next: nat, caller: nat, id: int, inp: TxnInput)
    requires TxnErrors(inp) == [] && TxnsValid(ts, next)
    ensures TxnsValid(EditAll(ts, caller, id, inp), next)
  {
    var r := EditAll(ts, caller, id, inp);
    assert forall k :: 0 <= k < |r| ==> r[k].id == ts[k].id;
  }

  /** PUT /:id: rewrites the five fields of the caller's row with that id and
      replies with the row, joined; 404 when the caller has no such row. */
  function UpdateTxn(db: Db, caller: nat, id: int, inp: TxnInput): (out: Outcome<TxnRow>)
    requires Valid(db)
    ensures Valid(out.db)
    ensures out.db.users == db.users && out.db.categories == db.categories
    ensures TxnErrors(inp) != [] ==> out == Outcome(Invalid(TxnErrors(inp)), db)
    ensures TxnErrors(inp) == [] && !OwnsTxn(db.transactions, caller, id) ==>
              out == Outcome(Refused(404, NotFound), db)
    ensures TxnErrors(inp) == [] && OwnsTxn(db.transactions, caller, id) ==>
              && |out.db.transactions| == |db.transactions|
              && (forall i :: 0 <= i < |db.transactions| ==>
                    out.db.transactions[i] ==
                      if Matches(db.transactions[i], caller, id)
                      then Edited(db.transactions[i], inp) else db.transactions[i])
              && out.reply.Ok? && out.reply.status == 200
              && out.reply.body.txn.id == id && out.reply.body.txn.userId == caller
              && out.reply.body.txn in out.db.transactions
              && out.reply.body == Join(out.reply.body.txn, db.categories)
  {
    var errs := TxnErrors(inp);
    if errs != [] then Outcome(Invalid(errs), db)
    else
      var ts := EditAll(db.transactions, caller, id, inp);
      match MatchIndex(db.transactions, caller, id)
      case None =>
        EditNothing(db.transactions, caller, id, inp);
        Outcome(Refused(404, NotFound), db)
      case Some(i) =>
        EditAllValid(db.transactions, db.nextTxnId, caller, id, inp);
        assert ts[i] in ts;
        Outcome(Ok(200, Join(ts[i], db.categories)), db.(transactions := ts))
  }

  /** The position of the first row the `WHERE` clause matches. */
  function MatchIndex(ts: seq<Txn>, caller: nat, id: int): (r: Option<nat>)
    ensures r.None? <==> !OwnsTxn(ts, caller, id)
    ensures r.Some? ==> r.value < |ts| && Matches(ts[r.value], caller, id)
  {
    if |ts| == 0 then None
    else if Matches(ts[0], caller, id) then Some(0)
    else
      match MatchIndex(ts[1..], caller, id)
      case None =>
        assert !OwnsTxn(ts, caller, id) by {
          assert ts == [ts[0]] + ts[1..];
        }
        None
      case Some(k) => Some(k + 1)
  }

  lemma EditNothing(ts: seq<Txn>, caller: nat, id: int, inp: TxnInput)
    requires TxnErrors(inp) == [] && !OwnsTxn(ts, caller, id)
    ensures EditAll(ts, caller, id, inp) == ts
  {
    var r := EditAll(ts, caller, id, inp);
    forall k | 0 <= k < |ts| ensures r[k] == ts[k] {
      assert ts[k] in ts;
    }
  }

  /** The table after deleting the rows with that id owned by the caller. */
  function RemoveTxn(ts: seq<Txn>, caller: nat, id: int): (r: seq<Txn>)
    ensures forall t :: t in r <==> t in ts && !Matches(t, caller, id)
    ensures |r| == |ts| - MatchCount(ts, caller, id)
  {
    if |ts| == 0 then []
    else (if Matches(ts[0], caller, id) then [] else [ts[0]]) + RemoveTxn(ts[1..], caller, id)
  }

  lemma {:induction false} RemoveTxnValid(ts: seq<Txn>, next: nat, caller: nat, id: int)
    requires TxnsValid(ts, next)
    ensures TxnsValid(RemoveTxn(ts, caller, id), next)
  {
    if |ts| > 0 {
      assert TxnsValid(ts[1..], next);
      RemoveTxnValid(ts[1..], next, caller, id);
      var rest := RemoveTxn(ts[1..], caller, id);
      var r := RemoveTxn(ts, caller, id);
      if !Matches(ts[0], caller, id) {
        assert r == [ts[0]] + rest;
        forall u | u in ts[1..] ensures u.id != ts[0].id {
          var m :| 0 <= m < |ts[1..]| && ts[1..][m] == u;
          assert ts[m + 1] == u;
        }
        ConsValid(ts[0], rest, next);
      }
    }
  }

  /** A row whose id is below the counter and unused keeps a table valid. */
  lemma ConsValid(t: Txn, ts: seq<Txn>, next: nat)
    requires TxnsValid(ts, next) && t.id < next
    requires forall u :: u in ts ==> u.id != t.id
    ensures TxnsValid([t] + ts, next)
  {
    var r := [t] + ts;
    forall i, j | 0 <= i < j < |r| ensures r[i].id != r[j].id {
      assert r[j] == ts[j - 1];
      if i > 0 {
        assert r[i] == ts[i - 1];
      }
    }
  }

  /** With unique ids at most one row matches. */
  lemma {:induction false} MatchCountAtMostOne(ts: seq<Txn>, next: nat, caller: nat, id: int)
    requires TxnsValid(ts, next)
    ensures MatchCount(ts, caller, id) <= 1
  {
    if |ts| > 0 {
      assert TxnsValid(ts[1..], next);
      MatchCountAtMostOne(ts[1..], next, caller, id);
      if Matches(ts[0], caller, id) {
        forall t | t in ts[1..] ensures !Matches(t, caller, id) {
          var k :| 0 <= k < |ts[1..]| && ts[1..][k] == t;
          assert ts[k + 1] == t;
        }
      }
    }
  }

  /** DELETE /:id: removes exactly the caller's row with that id; 404 and no
      change when the caller has no such row. */
  function DeleteTxn(db: Db, caller: nat, id: int): (out: Outcome<string>)
    requires Valid(db)
    ensures Valid(out.db)
    ensures out.db.users == db.users && out.db.categories == db.categories
    ensures !OwnsTxn(db.transactions, caller, id) ==> out == Outcome(Refused(404, NotFound), db)
    ensures OwnsTxn(db.transactions, caller, id) ==>
              && out.reply == Ok(200, Deleted)
              && |out.db.transactions| == |db.transactions| - 1
              && forall t :: t in out.db.transactions <==>
                   t in db.transactions && !Matches(t, caller, id)
  {
    var ts := RemoveTxn(db.transactions, caller, id);
    var db' := db.(transactions := ts);
    MatchCountAtMostOne(db.transactions, db.nextTxnId, caller, id);
    RemoveTxnValid(db.transactions, db.nextTxnId, caller, id);
    if |db.transactions| - |ts| == 0 then
      assert ts == db.transactions by {
        NothingRemoved(db.transactions, caller, id);
      }
      Outcome(Refused(404, NotFound), db')
    else
      Outcome(Ok(200, Deleted), db')
  }

  lemma {:induction false} NothingRemoved(ts: seq<Txn>, caller: nat, id: int)
    requires MatchCount(ts, caller, id) == 0
    ensures RemoveTxn(ts, caller, id) == ts
  {
    if |ts| > 0 {
      assert !Matches(ts[0], caller, id) && MatchCount(ts[1..], caller, id) == 0;
      NothingRemoved(ts[1..], caller, id);
      assert RemoveTxn(ts, caller, id) == [ts[0]] + ts[1..];
      assert [ts[0]] + ts[1..] == ts;
    }
  }

  lemma {:induction false} EditAllKeepsOthers(ts: seq<Txn>, caller: nat, id: int, inp: TxnInput, other: nat)
    requires TxnErrors(inp) == [] && other != caller
    ensures TxnsOf(EditAll(ts, caller, id, inp), other) == TxnsOf(ts, other)
  {
    if |ts| > 0 {
      var r := EditAll(ts, caller, id, inp);
      assert r[1..] == EditAll(ts[1..], caller, id, inp);
      EditAllKeepsOthers(ts[1..], caller, id, inp, other);
    }
  }

  lemma {:induction false} RemoveTxnKeepsOthers(ts: seq<Txn>, caller: nat, id: int, other: nat)
    requires other != caller
    ensures TxnsOf(RemoveTxn(ts, caller, id), other) == TxnsOf(ts, other)
  {
    if |ts| > 0 {
      var rest := RemoveTxn(ts[1..], caller, id);
      RemoveTxnKeepsOthers(ts[1..], caller, id, other);
      var head := if Matches(ts[0], caller, id) then [] else [ts[0]];
      assert RemoveTxn(ts, caller, id) == head + rest;
      TxnsOfAppend(head, rest, other);
      assert TxnsOf(ts, other) == TxnsOf([ts[0]], other) + TxnsOf(ts[1..], other) by {
        assert ts == [ts[0]] + ts[1..];
        TxnsOfAppend([ts[0]], ts[1..], other);
      }
    }
  }

  /** Whatever the caller creates, every other user lists exactly what they
      listed before. */
  lemma CreateTxnIsolated(db: Db, caller: nat, other: nat, inp: TxnInput)
    requires Valid(db) && other != caller
    ensures ListTxns(CreateTxn(db, caller, inp).db, other) == ListTxns(db, other)
  {
    var db' := CreateTxn(db, caller, inp).db;
    if TxnErrors(inp) == [] {
      var n := |db.transactions|;
      var t := db'.transactions[n];
      assert db'.transactions == db.transactions + [t] by {
        assert db'.transactions == db'.transactions[..n] + [t];
      }
      TxnsOfAppend(db.transactions, [t], other);
      assert TxnsOf([t], other) == [];
      assert TxnsOf(db'.transactions, other) == TxnsOf(db.transactions, other);
    }
  }

  /** Whatever the caller updates, every other user lists exactly what they
      listed before: another user's row is never matched. */
  lemma UpdateTxnIsolated(db: Db, caller: nat, other: nat, id: int, inp: TxnInput)
    requires Valid(db) && other != caller
    ensures ListTxns(UpdateTxn(db, caller, id, inp).db, other) == ListTxns(db, other)
  {
    if TxnErrors(inp) == [] {
      EditAllKeepsOthers(db.transactions, caller, id, inp, other);
    }
  }

  /** Whatever the caller deletes, every other user lists exactly what they
      listed before. */
  lemma DeleteTxnIsolated(db: Db, caller: nat, other: nat, id: int)
    requires Valid(db) && other != caller
    ensures ListTxns(DeleteTxn(db, caller, id).db, other) == ListTxns(db, other)
  {
    RemoveTxnKeepsOthers(db.transactions, caller, id, other);
  }
}

=== FILE: sorting.dfy ===
/** A stable insertion sort by a caller-supplied comparison, used for the
    transaction list's date order, the category list's name order and the
    per-category statistics' total order. (The monthly statistics order their
    months while grouping them; see `Stats.InsertMonth`.) SQL leaves the order
    of ties open; the sort fixes one, and the contracts only promise an ordered
    permutation. */
module Sorting {

  /** Every two values are comparable. */
  ghost predicate Total<T(!new)>(le: (T, T) -> bool)
  {
    forall a, b :: le(a, b) || le(b, a)
  }

  /** Each element is ordered with respect to the next one. */
  predicate SortedBy<T>(s: seq<T>, le: (T, T) -> bool)
  {
    forall i :: 0 < i < |s| ==> le(s[i - 1], s[i])
  }

  predicate Distinct<T(==)>(s: seq<T>)
  {
    forall i, j :: 0 <= i < j < |s| ==> s[i] != s[j]
  }

  /** The index before the first element that `x` may precede. */
  function InsertPos<T>(x: T, s: seq<T>, le: (T, T) -> bool): (k: nat)
    ensures k <= |s|
    ensures forall j :: 0 <= j < k ==> !le(x, s[j])
    ensures k < |s| ==> le(x, s[k])
  {
    if |s| == 0 || le(x, s[0]) then 0 else 1 + InsertPos(x, s[1..], le)
  }

  lemma InsertKeepsOrder<T(!new)>(x: T, s: seq<T>, le: (T, T) -> bool, k: nat)
    requires Total(le) && SortedBy(s, le)
    requires k == InsertPos(x, s, le)
    ensures SortedBy(s[..k] + [x] + s[k..], le)
  {
    var r := s[..k] + [x] + s[k..];
    forall i | 0 < i < |r| ensures le(r[i - 1], r[i]) {
      if i < k {
        assert r[i - 1] == s[i - 1] && r[i] == s[i];
      } else if i == k {
        assert r[i - 1] == s[k - 1] && r[i] == x;
        assert !le(x, s[k - 1]);
      } else if i == k + 1 {
        assert r[i - 1] == x && r[i] == s[k];
      } else {
        assert r[i - 1] == s[i - 2] && r[i] == s[i - 1];
      }
    }
  }

  lemma InsertKeepsDistinct<T>(x: T, s: seq<T>, k: nat)
    requires k <= |s| && Distinct(s) && x !in s
    ensures Distinct(s[..k] + [x] + s[k..])
  {
    var r := s[..k] + [x] + s[k..];
    forall i, j | 0 <= i < j < |r| ensures r[i] != r[j] {
      if j < k {
        assert r[i] == s[i] && r[j] == s[j];
      } else if j == k {
        assert r[j] == x && r[i] == s[i];
      } else if i < k {
        assert r[i] == s[i] && r[j] == s[j - 1];
      } else if i == k {
        assert r[i] == x && r[j] == s[j - 1];
      } else {
        assert r[i] == s[i - 1] && r[j] == s[j - 1];
      }
    }
  }

  /** Inserts `x` after every element it may not precede. */
  function InsertBy<T(!new)>(x: T, s: seq<T>, le: (T, T) -> bool): (r: seq<T>)
    ensures multiset(r) == multiset(s) + multiset{x}
    ensures Total(le) && SortedBy(s, le) ==> SortedBy(r, le)
    ensures Distinct(s) && x !in s ==> Distinct(r)
  {
    var k := InsertPos(x, s, le);
    assert s == s[..k] + s[k..];
    var r := s[..k] + [x] + s[k..];
    assert Total(le) && SortedBy(s, le) ==> SortedBy(r, le) by {
      if Total(le) && SortedBy(s, le) { InsertKeepsOrder(x, s, le, k); }
    }
    assert Distinct(s) && x !in s ==> Distinct(r) by {
      if Distinct(s) && x !in s { InsertKeepsDistinct(x, s, k); }
    }
    r
  }

  /** Insertion sort: an ordered permutation of `s` whenever `le` is total. */
  function SortBy<T(!new)>(s: seq<T>, le: (T, T) -> bool): (r: seq<T>)
    ensures multiset(r) == multiset(s)
    ensures |r| == |s|
    ensures Total(le) ==> SortedBy(r, le)
    ensures Distinct(s) ==> Distinct(r)
  {
    if |s| == 0 then []
    else
      var rest := SortBy(s[1..], le);
      assert s == [s[0]] + s[1..];
      assert Distinct(s) ==> s[0] !in rest by {
        if Distinct(s) {
          HeadNotInTail(s);
          assert s[0] !in multiset(s[1..]);
        }
      }
      InsertBy(s[0], rest, le)
  }

  lemma HeadNotInTail<T>(s: seq<T>)
    requires |s| > 0 && Distinct(s)
    ensures s[0] !in s[1..]
  {
    forall j | 0 <= j < |s[1..]| ensures s[1..][j] != s[0] {
      assert s[1..][j] == s[j + 1];
    }
  }

  /** Permutations have the same elements. */
  lemma SameElements<T>(a: seq<T>, b: seq<T>)
    requires multiset(a) == multiset(b)
    ensures forall x :: x in a <==> x in b
  {
    forall x ensures x in a <==> x in b {
      assert x in a <==> x in multiset(a);
      assert x in b <==> x in multiset(b);
    }
  }

  lemma PermutationEmpty<T>(a: seq<T>, b: seq<T>)
    requires multiset(a) == multiset(b) && |a| == 0
    ensures |b| == 0
  {
    assert |b| == |multiset(b)|;
  }

  /** The first element of `a` sits somewhere in a permutation `b`, and what
      remains of the two is again a permutation. */
  lemma PermutationPick<T>(a: seq<T>, b: seq<T>) returns (j: nat)
    requires multiset(a) == multiset(b) && |a| > 0
    ensures j < |b| && b[j] == a[0]
    ensures multiset(a[1..]) == multiset(b[..j] + b[j + 1..])
  {
    assert a[0] in multiset(b);
    j :| 0 <= j < |b| && b[j] == a[0];
    assert b == b[..j] + [b[j]] + b[j + 1..];
    assert a == [a[0]] + a[1..];
    var rest := b[..j] + b[j + 1..];
    assert multiset(b) == multiset(rest) + multiset{a[0]};
    assert multiset(a) == multiset(a[1..]) + multiset{a[0]};
    forall x ensures multiset(a[1..])[x] == multiset(rest)[x] {
      assert multiset(a)[x] == multiset(a[1..])[x] + multiset{a[0]}[x];
      assert multiset(b)[x] == multiset(rest)[x] + multiset{a[0]}[x];
    }
  }
}

=== FILE: stats.dfy ===
/** GET /stats: two read-only aggregations of the caller's transactions. Each
    is written as a single pass that accumulates per-group totals, and is
    proved equal to the filtered sums the queries describe. */
module Stats {
  import opened Common
  import opened Store
  import opened Sorting

  /** The year-and-month bucket the monthly statistics group by. For
      four-digit years, ordering buckets by year and then month agrees with
      ordering their "YYYY-MM" labels. */
  datatype MonthKey = MonthKey(year: int, month: int)

  function MonthOf(d: Date): MonthKey
  {
    MonthKey(d.year, d.month)
  }

  /** `a` is a later month than `b`, so it is listed first. */
  predicate Newer(a: MonthKey, b: MonthKey)
  {
    a.year > b.year || (a.year == b.year && a.month > b.month)
  }

  const MonthLimit := 12

  datatype MonthRow = MonthRow(month: MonthKey, totalIncome: int, totalExpenses: int)

  /** A category with the summed amounts of the caller's transactions that
      reference it. */
  datatype CategoryTotal = CategoryTotal(category: Category, total: int)

  /** A `byCategory` row: the category's name and type and the summed amount. */
  datatype CategoryRow = CategoryRow(name: string, kind: Kind, total: int)

  datatype StatsReply = StatsReply(monthly: seq<MonthRow>, byCategory: seq<CategoryRow>)

  /** Some transaction of `ts` falls in month `m`. */
  predicate InMonth(ts: seq<Txn>, m: MonthKey)
  {
    exists t :: t in ts && MonthOf(t.date) == m
  }

  /** Some row of `rows` is the row of month `m`. */
  predicate Listed(rows: seq<MonthRow>, m: MonthKey)
  {
    exists i :: 0 <= i < |rows| && rows[i].month == m
  }

  /** The amounts of the rows of `ts` in month `m` with polarity `k`, summed;
      rows of the other polarity add nothing to the month's figure. */
  function MonthSum(ts: seq<Txn>, m: MonthKey, k: Kind): int
  {
    if |ts| == 0 then 0
    else (if MonthOf(ts[0].date) == m && ts[0].kind == k then ts[0].amount else 0)
         + MonthSum(ts[1..], m, k)
  }

  lemma {:induction false} MonthSumOfOtherMonths(ts: seq<Txn>, m: MonthKey, k: Kind)
    requires !InMonth(ts, m)
    ensures MonthSum(ts, m, k) == 0
  {
    if |ts| > 0 {
      assert ts[0] in ts;
      assert !InMonth(ts[1..], m);
      MonthSumOfOtherMonths(ts[1..], m, k);
    }
  }

  datatype Totals = Totals(income: int, expenses: int)

  /** One pass over `ts`, adding each amount to its month's income or
      expense total. */
  function GroupByMonth(ts: seq<Txn>): (g: map<MonthKey, Totals>)
    ensures forall m :: m in g <==> InMonth(ts, m)
    ensures forall m :: m in g ==> g[m] == Totals(MonthSum(ts, m, Income), MonthSum(ts, m, Expense))
  {
    if |ts| == 0 then map[]
    else
      var g := GroupByMonth(ts[1..]);
      var t := ts[0];
      var m := MonthOf(t.date);
      var before := if m in g then g[m] else Totals(0, 0);
      var after := if t.kind == Income then before.(income := before.income + t.amount)
                   else before.(expenses := before.expenses + t.amount);
      GroupByMonthStep(ts, g, after);
      g[m := after]
  }

  lemma InMonthCons(ts: seq<Txn>, m: MonthKey)
    requires |ts| > 0
    ensures InMonth(ts, m) <==> MonthOf(ts[0].date) == m || InMonth(ts[1..], m)
  {
    assert ts == [ts[0]] + ts[1..];
    if InMonth(ts, m) && MonthOf(ts[0].date) != m {
      var t :| t in ts && MonthOf(t.date) == m;
      assert t in ts[1..];
    }
    if InMonth(ts[1..], m) {
      var t :| t in ts[1..] && MonthOf(t.date) == m;
      assert t in ts;
    }
  }

  lemma GroupByMonthStep(ts: seq<Txn>, g: map<MonthKey, Totals>, after: Totals)
    requires |ts| > 0
    requires forall m :: m in g <==> InMonth(ts[1..], m)
    requires forall m :: m in g ==> g[m] == Totals(MonthSum(ts[1..], m, Income), MonthSum(ts[1..], m, Expense))
    requires var m := MonthOf(ts[0].date);
             var before := if m in g then g[m] else Totals(0, 0);
             after == if ts[0].kind == Income then before.(income := before.income + ts[0].amount)
                      else before.(expenses := before.expenses + ts[0].amount)
    ensures var g' := g[MonthOf(ts[0].date) := after];
            && (forall m :: m in g' <==> InMonth(ts, m))
            && (forall m :: m in g' ==> g'[m] == Totals(MonthSum(ts, m, Income), MonthSum(ts, m, Expense)))
  {
    var m0 := MonthOf(ts[0].date);
    var g' := g[m0 := after];
    forall m ensures m in g' <==> InMonth(ts, m) {
      InMonthCons(ts, m);
    }
    forall m | m in g' ensures g'[m] == Totals(MonthSum(ts, m, Income), MonthSum(ts, m, Expense)) {
      if m == m0 && m0 !in g {
        MonthSumOfOtherMonths(ts[1..], m0, Income);
        MonthSumOfOtherMonths(ts[1..], m0, Expense);
      }
    }
  }

  /** Strictly newest first. */
  predicate NewestFirst(ks: seq<MonthKey>)
  {
    forall i, j :: 0 <= i < j < |ks| ==> Newer(ks[i], ks[j])
  }

  /** Inserts a month into a strictly newest-first list of months, unless it
      is already there. */
  function InsertMonth(m: MonthKey, ks: seq<MonthKey>): (r: seq<MonthKey>)
    requires NewestFirst(ks)
    ensures NewestFirst(r)
    ensures forall x :: x in r <==> x == m || x in ks
  {
    if |ks| == 0 then [m]
    else if m == ks[0] then ks
    else if Newer(m, ks[0]) then [m] + ks
    else
      var rest := InsertMonth(m, ks[1..]);
      assert forall x :: x in ks <==> x == ks[0] || x in ks[1..] by {
        assert ks == [ks[0]] + ks[1..];
      }
      assert forall x :: x in rest ==> Newer(ks[0], x) by {
        forall x | x in rest ensures Newer(ks[0], x) {
          if x != m {
            var k :| 0 <= k < |ks[1..]| && ks[1..][k] == x;
            assert ks[k + 1] == x;
          }
        }
      }
      var r := [ks[0]] + rest;
      assert NewestFirst(r) by {
        forall i, j | 0 <= i < j < |r| ensures Newer(r[i], r[j]) {
          if i == 0 {
            assert r[j] in rest;
          } else {
            assert r[i] == rest[i - 1] && r[j] == rest[j - 1];
          }
        }
      }
      r
  }

  /** The distinct months of `ts`, newest first. */
  function MonthsNewestFirst(ts: seq<Txn>): (ks: seq<MonthKey>)
    ensures NewestFirst(ks)
    ensures forall m :: m in ks <==> InMonth(ts, m)
  {
    if |ts| == 0 then []
    else
      var ks := InsertMonth(MonthOf(ts[0].date), MonthsNewestFirst(ts[1..]));
      assert forall m :: m in ks <==> InMonth(ts, m) by {
        forall m ensures m in ks <==> InMonth(ts, m) {
          InMonthCons(ts, m);
        }
      }
      ks
  }

  /** The monthly grouping of a list of transactions: one row per month in
      which some transaction falls, carrying that month's income and expense
      sums, strictly newest first and cut to the twelve most recent months. */
  function MonthlyRows(ts: seq<Txn>): (rows: seq<MonthRow>)
    ensures |rows| <= MonthLimit
    ensures forall i :: 0 <= i < |rows| ==> InMonth(ts, rows[i].month)
    ensures forall i :: 0 <= i < |rows| ==>
              && rows[i].totalIncome == MonthSum(ts, rows[i].month, Income)
              && rows[i].totalExpenses == MonthSum(ts, rows[i].month, Expense)
    ensures forall i, j :: 0 <= i < j < |rows| ==> Newer(rows[i].month, rows[j].month)
    ensures forall t :: t in ts ==>
              Listed(rows, MonthOf(t.date))
              || (|rows| == MonthLimit && Newer(rows[MonthLimit - 1].month, MonthOf(t.date)))
  {
    var g := GroupByMonth(ts);
    var ks := MonthsNewestFirst(ts);
    var rows := FirstMonths(ks, g);
    FirstMonthsSound(ts, ks, g, rows);
    forall t | t in ts
      ensures Listed(rows, MonthOf(t.date))
              || (|rows| == MonthLimit && Newer(rows[MonthLimit - 1].month, MonthOf(t.date)))
    {
      FirstMonthsComplete(ks, rows, MonthOf(t.date));
    }
    rows
  }

  /** The rows kept are months of `ts`, newest first, with their sums. */
  lemma FirstMonthsSound(ts: seq<Txn>, ks: seq<MonthKey>, g: map<MonthKey, Totals>, rows: seq<MonthRow>)
    requires forall m :: m in g ==> g[m] == Totals(MonthSum(ts, m, Income), MonthSum(ts, m, Expense))
    requires NewestFirst(ks) && forall m :: m in ks <==> InMonth(ts, m)
    requires forall m :: m in ks ==> m in g
    requires |rows| <= |ks|
    requires forall i :: 0 <= i < |rows| ==> rows[i] == MonthRow(ks[i], g[ks[i]].income, g[ks[i]].expenses)
    ensures forall i :: 0 <= i < |rows| ==> InMonth(ts, rows[i].month)
    ensures forall i :: 0 <= i < |rows| ==>
              && rows[i].totalIncome == MonthSum(ts, rows[i].month, Income)
              && rows[i].totalExpenses == MonthSum(ts, rows[i].month, Expense)
    ensures forall i, j :: 0 <= i < j < |rows| ==> Newer(rows[i].month, rows[j].month)
  {
    assert forall i :: 0 <= i < |rows| ==> rows[i].month == ks[i] && ks[i] in ks;
  }

  /** A month of a newest-first list is either among the rows kept or older
      than the last of twelve. */
  lemma FirstMonthsComplete(ks: seq<MonthKey>, rows: seq<MonthRow>, m: MonthKey)
    requires NewestFirst(ks) && m in ks
    requires |rows| == if |ks| < MonthLimit then |ks| else MonthLimit
    requires forall i :: 0 <= i < |rows| ==> rows[i].month == ks[i]
    ensures Listed(rows, m) || (|rows| == MonthLimit && Newer(rows[MonthLimit - 1].month, m))
  {
    var k :| 0 <= k < |ks| && ks[k] == m;
    if k < |rows| {
      assert rows[k].month == m;
    }
  }

  /** The rows of the first (at most twelve) months of `ks`. */
  function FirstMonths(ks: seq<MonthKey>, g: map<MonthKey, Totals>): (rows: seq<MonthRow>)
    requires forall m :: m in ks ==> m in g
    ensures |rows| == if |ks| < MonthLimit then |ks| else MonthLimit
    ensures forall i :: 0 <= i < |rows| ==>
              rows[i] == MonthRow(ks[i], g[ks[i]].income, g[ks[i]].expenses)
  {
    var n := if |ks| < MonthLimit then |ks| else MonthLimit;
    seq(n, i requires 0 <= i < n => MonthRow(ks[i], g[ks[i]].income, g[ks[i]].expenses))
  }

  /** The caller has a transaction dated in month `m`. */
  predicate HasTxnIn(ts: seq<Txn>, caller: nat, m: MonthKey)
  {
    exists t :: t in ts && t.userId == caller && MonthOf(t.date) == m
  }

  /** The `monthly` part of GET /stats: one row per month in which the caller
      has a transaction, carrying the sums of the caller's income and expense
      amounts in that month, strictly newest first, and only the twelve most
      recent such months. */
  function MonthlyStats(db: Db, caller: nat): (rows: seq<MonthRow>)
    ensures |rows| <= MonthLimit
    ensures forall i :: 0 <= i < |rows| ==> HasTxnIn(db.transactions, caller, rows[i].month)
    ensures forall i :: 0 <= i < |rows| ==>
              && rows[i].totalIncome == MonthSum(TxnsOf(db.transactions, caller), rows[i].month, Income)
              && rows[i].totalExpenses == MonthSum(TxnsOf(db.transactions, caller), rows[i].month, Expense)
    ensures forall i, j :: 0 <= i < j < |rows| ==> Newer(rows[i].month, rows[j].month)
    ensures forall t :: t in db.transactions && t.userId == caller ==>
              Listed(rows, MonthOf(t.date))
              || (|rows| == MonthLimit && Newer(rows[MonthLimit - 1].month, MonthOf(t.date)))
  {
    var mine := TxnsOf(db.transactions, caller);
    var rows := MonthlyRows(mine);
    assert forall i :: 0 <= i < |rows| ==> HasTxnIn(db.transactions, caller, rows[i].month) by {
      forall i | 0 <= i < |rows| ensures HasTxnIn(db.transactions, caller, rows[i].month) {
        assert InMonth(mine, rows[i].month);
        var t :| t in mine && MonthOf(t.date) == rows[i].month;
        assert t in db.transactions && t.userId == caller;
      }
    }
    assert forall t :: t in db.transactions && t.userId == caller ==> t in mine;
    rows
  }

  /** The amounts of the rows of `ts` whose `category_id` is `cid`, summed
      whatever their polarity. */
  function CategorySum(ts: seq<Txn>, cid: int): int
  {
    if |ts| == 0 then 0
    else (if ts[0].categoryId == cid then ts[0].amount else 0) + CategorySum(ts[1..], cid)
  }

  lemma UsesCategoryCons(ts: seq<Txn>, cid: int)
    requires |ts| > 0
    ensures UsesCategory(ts, cid) <==> ts[0].categoryId == cid || UsesCategory(ts[1..], cid)
  {
    assert ts == [ts[0]] + ts[1..];
    if UsesCategory(ts, cid) && ts[0].categoryId != cid {
      var t :| t in ts && t.categoryId == cid;
      assert t in ts[1..];
    }
    if UsesCategory(ts[1..], cid) {
      var t :| t in ts[1..] && t.categoryId == cid;
      assert t in ts;
    }
  }

  lemma {:induction false} CategorySumUnused(ts: seq<Txn>, cid: int)
    requires !UsesCategory(ts, cid)
    ensures CategorySum(ts, cid) == 0
  {
    if |ts| > 0 {
      UsesCategoryCons(ts, cid);
      CategorySumUnused(ts[1..], cid);
    }
  }

  /** One pass over `ts`, adding each amount to its category id's total. */
  function GroupByCategory(ts: seq<Txn>): (g: map<int, int>)
    ensures forall cid :: cid in g <==> UsesCategory(ts, cid)
    ensures forall cid :: cid in g ==> g[cid] == CategorySum(ts, cid)
  {
    if |ts| == 0 then map[]
    else
      var g := GroupByCategory(ts[1..]);
      var t := ts[0];
      var before := if t.categoryId in g then g[t.categoryId] else 0;
      var g' := g[t.categoryId := before + t.amount];
      assert forall cid :: cid in g' ==> g'[cid] == CategorySum(ts, cid) by {
        forall cid | cid in g' ensures g'[cid] == CategorySum(ts, cid) {
          if cid == t.categoryId && cid !in g {
            CategorySumUnused(ts[1..], cid);
          }
        }
      }
      assert forall cid :: cid in g' <==> UsesCategory(ts, cid) by {
        forall cid ensures cid in g' <==> UsesCategory(ts, cid) {
          UsesCategoryCons(ts, cid);
        }
      }
      g'
  }

  /** The inner join of the groups with the categories table: a group whose
      id names no category yields no row. */
  function JoinGroups(cs: seq<Category>, g: map<int, int>): (r: seq<CategoryTotal>)
    ensures forall p :: p in r <==> p.category in cs && p.category.id in g && p.total == g[p.category.id]
    ensures CategoryIdsUnique(cs) ==>
              forall i, j :: 0 <= i < j < |r| ==> r[i].category.id != r[j].category.id
  {
    if |cs| == 0 then []
    else
      var rest := JoinGroups(cs[1..], g);
      var head := if cs[0].id in g then [CategoryTotal(cs[0], g[cs[0].id])] else [];
      assert forall c :: c in cs <==> c == cs[0] || c in cs[1..] by {
        assert cs == [cs[0]] + cs[1..];
      }
      assert CategoryIdsUnique(cs) ==> forall p :: p in rest ==> p.category.id != cs[0].id by {
        if CategoryIdsUnique(cs) {
          forall p | p in rest ensures p.category.id != cs[0].id {
            var k :| 0 <= k < |cs[1..]| && cs[1..][k] == p.category;
            assert cs[k + 1] == p.category;
          }
        }
      }
      assert CategoryIdsUnique(cs) ==> CategoryIdsUnique(cs[1..]);
      head + rest
  }

  predicate LargestFirst(a: CategoryTotal, b: CategoryTotal)
  {
    a.total >= b.total
  }

  lemma LargestFirstTotal()
    ensures Total(LargestFirst)
  {
  }

  /** Some entry of `rows` is the entry of category `c`. */
  predicate HasEntry(rows: seq<CategoryTotal>, c: Category)
  {
    exists i :: 0 <= i < |rows| && rows[i].category == c
  }

  /** A caller's transaction references the category. */
  predicate Referenced(ts: seq<Txn>, caller: nat, c: Category)
  {
    exists t :: t in ts && t.userId == caller && t.categoryId == c.id
  }

  /** The `byCategory` part of GET /stats, before projection: one entry per
      category that one of the caller's transactions references, with the sum
      of all those transactions' amounts, largest total first. Transactions
      whose category id matches no category contribute to no entry. */
  function CategoryTotals(db: Db, caller: nat): (rows: seq<CategoryTotal>)
    requires Valid(db)
    ensures forall i :: 0 <= i < |rows| ==>
              && rows[i].category in db.categories
              && Referenced(db.transactions, caller, rows[i].category)
              && rows[i].total == CategorySum(TxnsOf(db.transactions, caller), rows[i].category.id)
    ensures forall c :: c in db.categories && Referenced(db.transactions, caller, c) ==>
              HasEntry(rows, c)
    ensures forall i, j :: 0 <= i < j < |rows| ==> rows[i].category.id != rows[j].category.id
    ensures forall i :: 0 < i < |rows| ==> rows[i - 1].total >= rows[i].total
  {
    var mine := TxnsOf(db.transactions, caller);
    var g := GroupByCategory(mine);
    var joined := JoinGroups(db.categories, g);
    assert Distinct(joined);
    var rows := SortBy(joined, LargestFirst);
    LargestFirstTotal();
    SameElements(rows, joined);
    OneRowPerCategory(db.categories, rows, g);
    forall c | c in db.categories && Referenced(db.transactions, caller, c)
      ensures HasEntry(rows, c)
    {
      var t :| t in db.transactions && t.userId == caller && t.categoryId == c.id;
      assert t in mine;
      assert CategoryTotal(c, g[c.id]) in rows;
    }
    rows
  }

  /** Entries that are pairwise different, each a category of a table with
      unique ids carrying that category's one total, have different ids. */
  lemma OneRowPerCategory(cs: seq<Category>, rows: seq<CategoryTotal>, g: map<int, int>)
    requires CategoryIdsUnique(cs) && Distinct(rows)
    requires forall p :: p in rows ==> p.category in cs && p.category.id in g && p.total == g[p.category.id]
    ensures forall i, j :: 0 <= i < j < |rows| ==> rows[i].category.id != rows[j].category.id
  {
    forall i, j | 0 <= i < j < |rows| ensures rows[i].category.id != rows[j].category.id {
      if rows[i].category.id == rows[j].category.id {
        assert rows[i] in rows && rows[j] in rows;
        FindCategoryUnique(cs, rows[i].category);
        FindCategoryUnique(cs, rows[j].category);
      }
    }
  }

  /** GET /stats. */
  function Stats(db: Db, caller: nat): (r: StatsReply)
    requires Valid(db)
    ensures r.monthly == MonthlyStats(db, caller)
    ensures |r.byCategory| == |CategoryTotals(db, caller)|
    ensures forall i :: 0 <= i < |r.byCategory| ==>
              var p := CategoryTotals(db, caller)[i];
              r.byCategory[i] == CategoryRow(p.category.name, p.category.kind, p.total)
  {
    var ct := CategoryTotals(db, caller);
    StatsReply(MonthlyStats(db, caller),
               seq(|ct|, i requires 0 <= i < |ct| =>
                     CategoryRow(ct[i].category.name, ct[i].category.kind, ct[i].total)))
  }
}

=== FILE: store.dfy ===
/** The three tables the routes read and write, with the auto-increment
    counters that hand out primary keys, and the invariant the routes keep
    when they run one at a time: unique ids below the counters, and unique
    e-mail addresses (which only the register route's own check maintains). */
module Store {
  import opened Common

  /** A salted one-way digest of a password, as `bcrypt.hash` produces it:
      the salt travels with the digest so that a later comparison can
      recompute it. */
  datatype PasswordHash = PasswordHash(salt: nat, digest: string)

  datatype User = User(id: nat, name: string, email: string, password: PasswordHash)

  /** A category; `owner == None` is a global category shared by everyone
      (a NULL `user_id`). */
  datatype Category = Category(id: nat, name: string, kind: Kind, owner: Option<nat>)

  /** A ledger entry. Amounts are integer cents. `categoryId` is whatever
      integer the client sent: nothing ties it to an existing category. */
  datatype Txn = Txn(id: nat, userId: nat, amount: int, description: string,
                     categoryId: int, date: Date, kind: Kind)

  datatype Db = Db(users: seq<User>, categories: seq<Category>, transactions: seq<Txn>,
                   nextUserId: nat, nextCategoryId: nat, nextTxnId: nat)

  /** A route's reply together with the database it leaves behind. */
  datatype Outcome<+T> = Outcome(reply: Reply<T>, db: Db)

  predicate UsersValid(us: seq<User>, next: nat)
  {
    && (forall i, j :: 0 <= i < j < |us| ==> us[i].id != us[j].id && us[i].email != us[j].email)
    && (forall i :: 0 <= i < |us| ==> us[i].id < next)
  }

  predicate CategoryIdsUnique(cs: seq<Category>)
  {
    forall i, j :: 0 <= i < j < |cs| ==> cs[i].id != cs[j].id
  }

  predicate CategoriesValid(cs: seq<Category>, next: nat)
  {
    && CategoryIdsUnique(cs)
    && (forall i :: 0 <= i < |cs| ==> cs[i].id < next)
  }

  predicate TxnsValid(ts: seq<Txn>, next: nat)
  {
    && (forall i, j :: 0 <= i < j < |ts| ==> ts[i].id != ts[j].id)
    && (forall i :: 0 <= i < |ts| ==> ts[i].id < next)
  }

  /** The invariant every route that changes the tables preserves, when the
      routes run one at a time. */
  predicate Valid(db: Db)
  {
    && UsersValid(db.users, db.nextUserId)
    && CategoriesValid(db.categories, db.nextCategoryId)
    && TxnsValid(db.transactions, db.nextTxnId)
  }

  /** The category a transaction's `category_id` joins to, if any. */
  function FindCategory(cs: seq<Category>, id: int): (r: Option<Category>)
    ensures r.None? <==> forall c :: c in cs ==> c.id != id
    ensures r.Some? ==> r.value in cs && r.value.id == id
  {
    if |cs| == 0 then None
    else if cs[0].id == id then Some(cs[0])
    else FindCategory(cs[1..], id)
  }

  /** With unique ids, the category found is the only one with that id. */
  lemma FindCategoryUnique(cs: seq<Category>, c: Category)
    requires CategoryIdsUnique(cs) && c in cs
    ensures FindCategory(cs, c.id) == Some(c)
  {
    var r := FindCategory(cs, c.id);
    var i :| 0 <= i < |cs| && cs[i] == c;
    var j :| 0 <= j < |cs| && cs[j] == r.value;
    assert i == j;
  }

  /** Some transaction of `ts` carries the category id `cid`. */
  predicate UsesCategory(ts: seq<Txn>, cid: int)
  {
    exists t :: t in ts && t.categoryId == cid
  }

  /** The rows of the transactions table owned by `user` (`WHERE user_id = ?`),
      in table order. */
  function TxnsOf(ts: seq<Txn>, user: nat): (r: seq<Txn>)
    ensures forall t :: t in r <==> t in ts && t.userId == user
    ensures |r| <= |ts|
  {
    if |ts| == 0 then []
    else (if ts[0].userId == user then [ts[0]] else []) + TxnsOf(ts[1..], user)
  }

  lemma {:induction false} TxnsOfAppend(a: seq<Txn>, b: seq<Txn>, user: nat)
    ensures TxnsOf(a + b, user) == TxnsOf(a, user) + TxnsOf(b, user)
  {
    if |a| == 0 {
      assert a + b == b;
    } else {
      assert (a + b)[1..] == a[1..] + b;
      TxnsOfAppend(a[1..], b, user);
    }
  }
}
